=== FILE: README.md ===
# A model of the logic of the Yoss single-page site

The site is one static page whose scripts attach event handlers to the DOM.
Inside those handlers sit a few pieces of state and arithmetic. This project
models them in Dafny and proves what they guarantee:

- the quiz: question counter, score, pause between questions, grading;
- the live counter that splits the time since the reconnection date into
  days, hours, minutes and seconds;
- the dark-mode preference kept in `localStorage`;
- the tap-to-show tooltips of the secret words;
- the reflection rule of the constellation particles;
- the photo lightbox;
- the navigation: progress bar, hide-on-scroll navbar, active link,
  scroll-to-top button, section dots, anchor clicks;
- the memory-card flip game and its completion message;
- the love letter, its typewriter reveal and its close.

The DOM is modelled as booleans, class sets and sequences.

- An object whose state the scripts update in place is a Dafny `class`, and
  its handlers are methods. A per-element list is an `array`.
- `localStorage` is a `map<string, string>`.
- Each `setTimeout` or `setInterval` callback is a method, called when the
  timer would fire. A counter of pending timeouts records what has been
  scheduled.
- Scroll offsets, element geometry and particle coordinates are JavaScript
  numbers, modelled as `real`.
- The elapsed milliseconds are `int`, with JavaScript's truncating `%`
  written out.
- The love letter `LoveLetter.Letter` is a sequence of UTF-16 code units,
  as JavaScript strings are. Every character before its closing emoji is
  one unit. The emoji U+1F496 is its surrogate pair `0xD83D 0xDC96`, so
  the typewriter's `charAt` shows the two halves on separate ticks.
- Browser reads (the clock, `Math.random`, `pageYOffset`, element sizes)
  are method parameters.

Modules: `Wrappers` (Option), `Text` (JavaScript `trim` and `includes`),
`TimeCounter`, `Quiz`, `Theme`, `SecretWords`, `Constellation`, `Lightbox`
(these from `main.js`), `Navigation`, `MemoryCards`, `LoveLetter`.

Two things the page might be expected to do, and does not:

- **Particles.** A particle's coordinates do not always stay inside the
  canvas. `update()` moves the particle first and only then reverses the
  velocity, so a particle can sit up to one velocity step outside the
  canvas. `Constellation.LeavesCanvas` exhibits this.
  `Constellation.StepsKeepRange` proves the bound that does hold.
- **Reduced motion.** `initConstellation` does not read the
  reduced-motion preference, so the constellation runs whatever that
  preference is, and the model has no such switch.

## Model

| member | source | states |
|---|---|---|
| Quiz.QuestionsWellFormed | sitio_yoss/public/js/main.js:466-492 | There are five questions, and each one's `correct` index names one of its own options, so the button that a wrong answer highlights always exists. |
| Quiz.GradeFor | sitio_yoss/public/js/main.js:580-591 | The percentage thresholds pick "Perfecto" exactly for 5 correct answers, "Excelente" exactly for 4, "Bien" exactly for 3, and the fallback exactly for 0 to 2. |
| Quiz.Tally | sitio_yoss/public/js/main.js:551-553 | The score after a run of answers never exceeds the number of answers. |
| Quiz.TallyAppend | sitio_yoss/public/js/main.js:551-553 | One more answer raises the score by one if it picks the correct index, and leaves it unchanged otherwise. |
| Quiz.TallyFullIffAllCorrect | sitio_yoss/public/js/main.js:544-570 | The score equals the number of answers if and only if every answer picked its question's correct index. |
| Quiz.PerfectIffAllCorrect | sitio_yoss/public/js/main.js:580-584 | A full game ends "Perfecto" if and only if every answer was correct. |
| Quiz.QuizGame.constructor | sitio_yoss/public/js/main.js:494-511 | Page load starts with both counters at 0 and the welcome panel shown. A click handler is attached to each of `#quizStart` and `#quizRestart` only if it exists. |
| Quiz.QuizGame.ShowQuestion | sitio_yoss/public/js/main.js:526-542 | Shows fresh, enabled, unmarked buttons for the current question and changes no counter. |
| Quiz.QuizGame.Start | sitio_yoss/public/js/main.js:514-524 | With a start button, a click shows question 1 with both counters at 0, keeping the game invariant. Without one nothing changes. |
| Quiz.QuizGame.KeyActivateOption | sitio_yoss/public/js/main.js:535-561 | Enter or Space on a focused option runs `checkAnswer` whether or not the question was already answered, because `pointer-events: none` does not block the keyboard. The score goes up by one exactly when the choice is correct. The chosen option is marked incorrect when wrong, and the correct option is marked in both cases. One more advance is scheduled. |
| Quiz.QuizGame.ClickOption | sitio_yoss/public/js/main.js:544-561 | A pointer click on an option that still takes pointer events has the effect of `checkAnswer`, and it keeps the one-answer-per-question invariant. A pointer click after `pointer-events: none` changes nothing. |
| Quiz.QuizGame.AdvanceTimer | sitio_yoss/public/js/main.js:562-569 | Each 1.5 s timeout raises `currentQuestion` by one, however many are pending. It then shows the next question, or shows the results with the grade of the current score once `currentQuestion` is at least 5. |
| Quiz.QuizGame.ShowResults | sitio_yoss/public/js/main.js:572-593 | The result panel shows the grade of the current score. |
| Quiz.QuizGame.Restart | sitio_yoss/public/js/main.js:505-510 | With a restart button, a click from any result panel, including one reached by double answers, sets both counters to 0 and shows question 1. When no advance is pending this gives a consistent fresh game (`Valid`). An advance still pending is kept, not cancelled. Without the button nothing changes. |
| Quiz.CountersBounded | sitio_yoss/public/js/main.js:494-570 | With pointer clicks only: the score never exceeds the answers given, which never exceed 5. `currentQuestion` never exceeds 5. Whenever no advance is pending, `score <= currentQuestion`. |
| Quiz.AnswerTwiceByKey | sitio_yoss/public/js/main.js:544-569 | Enter pressed twice on the correct option, then both pauses: the score rises by 2, `currentQuestion` by 2, so the next question is skipped. |
| Quiz.DoubleKeyPressOverscores | sitio_yoss/public/js/main.js:544-591 | Double Enter on questions 1, 3 and 5 ends with score 6 of 5 and `currentQuestion` 6, graded "Excelente", not "Perfecto", for a player who made no mistake. The restart button then leads to a fresh game at question 1 with both counters at 0. |
| Quiz.PlayThrough | sitio_yoss/public/js/main.js:514-593 | Answering every question and letting each pause elapse ends on the result panel. The score is the number of correct answers and the grade is the one for that score. |
| TimeCounter.FloorDiv | sitio_yoss/public/js/main.js:274-277 | `Math.floor(a / b)` is the largest `q` with `b*q <= a`. |
| TimeCounter.JsRem | sitio_yoss/public/js/main.js:275-277 | JavaScript `%` by a positive constant: strictly between `-b` and `b`; the Euclidean remainder for `a >= 0`; its negation on `-a` for `a < 0`. |
| TimeCounter.Decompose | sitio_yoss/public/js/main.js:272-277 | Days are the whole days in `diff`. Hours, minutes and seconds are each the whole number of their unit in the JavaScript remainder by the next larger unit. |
| TimeCounter.NestedRemainders | sitio_yoss/public/js/main.js:275-277 | Reducing by a day before an hour (by an hour before a minute, by a minute before a second) does not change the remainder. |
| TimeCounter.DecomposeExact | sitio_yoss/public/js/main.js:272-277 | For `diff >= 0`: `days >= 0`, `hours < 24`, `minutes < 60` and `seconds < 60`. The parts add back to `diff` less its sub-second remainder, so the sum lies in `(diff - 1000, diff]`. |
| TimeCounter.DecomposeBounded | sitio_yoss/public/js/main.js:272-277 | For any `diff`, each part below days lies within one carry bound of 0. For a clock set before the reconnection date, no part is positive and days is negative. |
| Theme.ResolveDarkMode | sitio_yoss/public/js/main.js:679-685 | With no saved theme the page loads dark. It loads light only when `'light'` is saved. |
| Theme.ResolveStorage | sitio_yoss/public/js/main.js:679-689 | Page load writes `'dark'` exactly when the saved theme is missing or empty. Any other saved value and every other key are kept. |
| Theme.LoadAgreesWithStorage | sitio_yoss/public/js/main.js:679-689 | After load, a theme is stored. Dark mode is on exactly when the stored value is not `'light'`. Mode and storage agree whenever the saved value was missing, empty, `'dark'` or `'light'`. |
| Theme.ThemePage.constructor | sitio_yoss/public/js/main.js:673-689 | `initDarkMode`: without a toggle button nothing changes. Otherwise only a saved `'light'` gives light mode, and a missing preference stores `'dark'`. |
| Theme.ThemePage.ToggleClick | sitio_yoss/public/js/main.js:691-699 | A toggle flips dark mode and stores `'dark'` exactly when dark mode is now on, else `'light'`, touching no other key. |
| SecretWords.AfterTap | sitio_yoss/public/js/main.js:423-433 | After a tap on word `w`, `w` has the opposite of its previous state and every other word is inactive. |
| SecretWords.TapIsExclusive | sitio_yoss/public/js/main.js:423-433 | After any tap at most one word is active, and a word is active if and only if it is the tapped one and it was inactive. |
| SecretWords.TapTwice | sitio_yoss/public/js/main.js:423-433 | Two taps on one word restore its state and leave the others inactive. From a state where only that word could be active, two taps change nothing. |
| SecretWords.SecretWordList.constructor | sitio_yoss/public/js/main.js:417-420 | The words start with the markup's classes; handlers exist only on touch devices. |
| SecretWords.SecretWordList.Tap | sitio_yoss/public/js/main.js:423-433 | On a touch device the click handler leaves exactly the classes `AfterTap` describes. Otherwise it changes nothing. |
| SecretWords.SecretWordList.DocumentClick | sitio_yoss/public/js/main.js:437-442 | On a touch device, a document click whose target lacks class `secret-word` deactivates every word. This includes a click on a descendant of a word, after that word's own toggle has run. A click whose target has the class, or any click on a non-touch device, changes nothing. |
| Constellation.StepAxis | sitio_yoss/public/js/main.js:734-740 | One axis of `update()` moves the coordinate by the velocity and keeps the speed. The velocity is reversed when the new coordinate is outside `[0, bound]` and kept when it is inside. |
| Constellation.Step | sitio_yoss/public/js/main.js:734-740 | One `update()` moves the particle by its velocity and keeps its speed on each axis. |
| Constellation.Steps | sitio_yoss/public/js/main.js:817-822 | Any number of frames keeps the particle's speed on each axis. |
| Constellation.AxisInRangeNearBounds | sitio_yoss/public/js/main.js:734-740 | A coordinate within the soft bound lies within one velocity step of `[0, bound]`. |
| Constellation.StepAxisKeepsRange | sitio_yoss/public/js/main.js:734-740 | One update of an axis keeps the soft bound and the speed. After a reversal the velocity points back towards the canvas. |
| Constellation.StepsKeepRange | sitio_yoss/public/js/main.js:734-740 | After any number of frames every particle keeps its speed on each axis and stays within one velocity step of the canvas. |
| Constellation.LeavesCanvas | sitio_yoss/public/js/main.js:734-738 | A particle on the left edge moving left is outside the canvas after one update. |
| Constellation.Spawn | sitio_yoss/public/js/main.js:726-730 | A new particle lies on the canvas, and its velocity on each axis lies in `[-0.25, 0.25)`. |
| Constellation.Scale | sitio_yoss/public/js/main.js:727-728 | `Math.random() * size` lies in `[0, size]`. |
| Constellation.SpawnInRange | sitio_yoss/public/js/main.js:726-732 | A new particle starts inside the soft bound that `update()` keeps. |
| Constellation.Particle.constructor | sitio_yoss/public/js/main.js:726-732 | `new Particle()` starts at the spawn state of its five random draws, inside the soft bound, with radius in `[1, 3)`. |
| Constellation.Particle.Update | sitio_yoss/public/js/main.js:734-740 | Position plus velocity. Each axis's velocity is negated exactly when the new coordinate is outside `[0, size]`. The radius is unchanged. |
| Constellation.Field.constructor | sitio_yoss/public/js/main.js:708-716 | With `#constellation-canvas`, the canvas takes the window's size and is filled with 60 new particles. Without it there are no particles. |
| Constellation.Field.InitParticles | sitio_yoss/public/js/main.js:755-760 | On an existing canvas, replaces the particles with exactly 60 fresh particles spawned from the draws, leaving the canvas size unchanged. |
| Constellation.Field.Resize | sitio_yoss/public/js/main.js:718-722 | With a canvas, a resize takes the new size and rebuilds exactly 60 particles for it. Without one no listener exists and nothing changes. |
| Constellation.Field.Animate | sitio_yoss/public/js/main.js:817-822 | One frame applies `update()` to every particle in order and keeps every particle inside the soft bound. |
| Text.Includes | sitio_yoss/public/js/main.js:372 | `s.includes(t)` holds if and only if `t` occurs in `s` at some position. |
| Lightbox.Opened | sitio_yoss/public/js/main.js:367-383 | A polaroid click shows the modal and locks scrolling. It copies the image source, and the caption as alt text, only for a non-empty, non-placeholder source. It copies the caption only when both the caption element and a caption exist. |
| Lightbox.Closed | sitio_yoss/public/js/main.js:387-390 | Closing hides the modal and unlocks scrolling, keeping image and caption. |
| Lightbox.AfterKey | sitio_yoss/public/js/main.js:404-408 | A key never changes the image, the alt text or the caption, and never opens the modal. |
| Lightbox.NeverShowsPlaceholder | sitio_yoss/public/js/main.js:372-375 | Opening never puts the placeholder picture into the modal. |
| Lightbox.EscapeClosesOnlyOpenModal | sitio_yoss/public/js/main.js:404-408 | A key press changes the modal if and only if it is Escape on an active modal, and then it closes it. |
| Lightbox.OpenIdempotent | sitio_yoss/public/js/main.js:367-383 | Clicking the same polaroid twice shows what one click shows. Closing afterwards keeps its image. |
| Lightbox.HandlersKeepConsistent | sitio_yoss/public/js/main.js:367-408 | Every handler keeps the modal's `active` class and the body scroll lock in step. |
| Lightbox.LightboxModal.constructor | sitio_yoss/public/js/main.js:357-364 | The modal starts in the page's state; without `#lightbox` no handler is attached. |
| Lightbox.LightboxModal.PolaroidClick | sitio_yoss/public/js/main.js:367-383 | A polaroid click gives `Opened`. Without `#lightbox`, or when a real image meets a missing `#lightboxImage` and the handler throws, nothing changes. |
| Lightbox.LightboxModal.Close | sitio_yoss/public/js/main.js:387-390 | `closeLightbox` gives `Closed`. |
| Lightbox.LightboxModal.CloseButtonClick | sitio_yoss/public/js/main.js:392-394 | The close button closes the modal when it exists. |
| Lightbox.LightboxModal.ModalClick | sitio_yoss/public/js/main.js:397-401 | A click closes the modal only when the backdrop itself is the target. |
| Lightbox.LightboxModal.KeyDown | sitio_yoss/public/js/main.js:404-408 | Escape closes an active modal; any other key, or Escape on a closed modal, changes nothing. |
| Navigation.ProgressWidth | sitio_yoss/public/js/components/navigation.js:28-37 | The bar never exceeds 100. It is exactly 100 when the page is scrolled to the end or beyond. Before that it is `scrollTop / (documentHeight - windowHeight) * 100`, and it is never negative for a non-negative offset. |
| Navigation.ProgressMonotone | sitio_yoss/public/js/components/navigation.js:33-36 | Scrolling further never shrinks the bar. |
| Navigation.ProgressBar.constructor | sitio_yoss/public/js/components/navigation.js:20-40 | With a fill element the first update runs at once; without one nothing changes. |
| Navigation.ProgressBar.Scroll | sitio_yoss/public/js/components/navigation.js:28-39 | A scroll sets the width to `ProgressWidth`. |
| Navigation.NavbarAfter | sitio_yoss/public/js/components/navigation.js:57-73 | `visible` holds exactly above 200. `scroll-down` holds exactly above 200 when the page moved down and is past 300. `scroll-up` holds exactly above 200 otherwise. |
| Navigation.NavbarAfterConsistent | sitio_yoss/public/js/components/navigation.js:60-73 | The classes never show both directions and show a direction only with `visible`. The result does not depend on the previous classes. Above 200 exactly one direction shows. |
| Navigation.NoDownwardMoveShowsNavbar | sitio_yoss/public/js/components/navigation.js:64-70 | Above 200, a scroll that does not move down leaves exactly `visible` and `scroll-up`. |
| Navigation.Navbar.constructor | sitio_yoss/public/js/components/navigation.js:46-55 | `lastScrollTop` starts at 0. |
| Navigation.Navbar.Scroll | sitio_yoss/public/js/components/navigation.js:57-76 | Every update sets the classes `NavbarAfter` gives for the previous offset and ends with `lastScrollTop = scrollTop`. |
| Navigation.VisitSection | sitio_yoss/public/js/components/navigation.js:101-107 | A section that contains the reading position activates exactly the links whose `href` is `#` plus its id. Any other section changes nothing. |
| Navigation.LinksAfter | sitio_yoss/public/js/components/navigation.js:96-109 | Visiting the sections in order keeps the number of links. A link that becomes active links to some section that contains the reading position. |
| Navigation.NoContainingSectionKeepsLinks | sitio_yoss/public/js/components/navigation.js:96-109 | When no section contains the reading position, no link changes. |
| Navigation.LastContainingSectionWins | sitio_yoss/public/js/components/navigation.js:96-109 | The last containing section in document order decides: exactly the links to it are active. |
| Navigation.NavLinks.Update | sitio_yoss/public/js/components/navigation.js:88-110 | `updateActiveNavLink` reads at a third of the window below the top and visits the sections in order, as `LinksAfter` specifies. |
| Navigation.ScrollToTopButton.Scroll | sitio_yoss/public/js/components/navigation.js:123-131 | The button is visible exactly when `scrollTop > 500`. |
| Navigation.DotsAfter | sitio_yoss/public/js/components/navigation.js:186-199 | Dot `i` is active exactly when `top_i - 200 <= scrollTop < top_i + height_i - 200`. Sections without a dot are skipped, and dots without a section are left as they were. |
| Navigation.AtMostOneDotActive | sitio_yoss/public/js/components/navigation.js:194-198 | When the sections do not overlap, no two dots that follow sections are active together. |
| Navigation.NatToString | sitio_yoss/public/js/components/navigation.js:160 | A whole number prints as a non-empty string of decimal digits that reads back as that number, with no leading zero except for 0 itself. |
| Navigation.DotLabel | sitio_yoss/public/js/components/navigation.js:160 | A generated dot's label is its section's non-empty `data-nav-title`, and otherwise `Sección ` followed by the section's 1-based position. It is never empty. |
| Navigation.SectionIndicator.constructor | sitio_yoss/public/js/components/navigation.js:146-172 | A missing indicator is generated with one dot per section, labelled by `DotLabel` and targeting `#id`. With no sections and no indicator nothing is attached. The first update runs at once. |
| Navigation.SectionIndicator.Scroll | sitio_yoss/public/js/components/navigation.js:174-200 | The panel is visible exactly when `scrollTop > 300`, and the dots become `DotsAfter`. |
| Navigation.AnchorClick | sitio_yoss/public/js/components/navigation.js:213-230 | A link whose `href` is exactly `#` is ignored. Any other link scrolls and pushes its own `href` if and only if its target exists. |
| MemoryCards.MessageFor | sitio_yoss/public/js/components/memoryCards.js:32 | A card's non-empty `data-message` wins; otherwise it gets `MEMORY_MESSAGES[index % 8]`. |
| MemoryCards.Configured | sitio_yoss/public/js/components/memoryCards.js:30-42 | Set-up writes the message only into an existing message element. It writes `CARD_ICONS[index % 8]` only into an icon element that is blank after trimming, and leaves other icons and the flip state alone. |
| MemoryCards.AssignmentIsCyclic | sitio_yoss/public/js/components/memoryCards.js:32-42 | Cards eight places apart are set up alike. |
| MemoryCards.IconNeverBlankAfterSetup | sitio_yoss/public/js/components/memoryCards.js:39-42 | After set-up an existing icon element is never blank. |
| Text.TrimStart | sitio_yoss/public/js/components/memoryCards.js:40 | Removes exactly the leading whitespace: the result is a suffix, what was removed is all whitespace, and the result does not start with whitespace. |
| Text.TrimEnd | sitio_yoss/public/js/components/memoryCards.js:40 | Removes exactly the trailing whitespace: the result is a prefix, what was removed is all whitespace, and the result does not end with whitespace. |
| Text.Trim | sitio_yoss/public/js/components/memoryCards.js:40 | `trim()` gives the piece of the text that is left once its leading and trailing whitespace is removed. The piece neither starts nor ends with whitespace, and everything before and after it is whitespace. |
| Text.TrimEmptyIffBlank | sitio_yoss/public/js/components/memoryCards.js:40 | `trim()` gives the empty string if and only if the text is all whitespace. |
| MemoryCards.Flip | sitio_yoss/public/js/components/memoryCards.js:61-68 | A click toggles `flipped` and changes nothing else on the card. |
| MemoryCards.FlipTwiceRestores | sitio_yoss/public/js/components/memoryCards.js:61-68 | Two clicks on a card restore every card. |
| MemoryCards.CountFlipped | sitio_yoss/public/js/components/memoryCards.js:182 | There are never more flipped cards than cards. |
| MemoryCards.CountFlippedFullIff | sitio_yoss/public/js/components/memoryCards.js:186 | The flipped count equals the card count if and only if every card is flipped. |
| MemoryCards.AllRevealed | sitio_yoss/public/js/components/memoryCards.js:180-189 | The count test of `checkAllCardsRevealed` holds exactly when there is at least one card and every card is flipped. |
| MemoryCards.MemoryGame.constructor | sitio_yoss/public/js/components/memoryCards.js:21-22 | The page starts with its cards and no handler attached. |
| MemoryCards.MemoryGame.ShowCompletionMessage | sitio_yoss/public/js/components/memoryCards.js:194-220 | A completion element is created only when none is in the document, and is appended only when the section exists. The reveal is scheduled. With a section the element is created at most once, however often completion recurs. |
| MemoryCards.MemoryGame.CheckAllCardsRevealed | sitio_yoss/public/js/components/memoryCards.js:180-189 | When `AllRevealed` holds, the completion message is found or created: it is created only when none is in the document, it is in the document afterwards when the section exists, and its reveal is queued. Otherwise nothing changes. |
| MemoryCards.MemoryGame.ConfigureCards | sitio_yoss/public/js/components/memoryCards.js:30-42 | The set-up loop leaves card `i` as `Configured(card, i)`, for every card. |
| MemoryCards.SetupKeepsRevealed | sitio_yoss/public/js/components/memoryCards.js:21-55 | Set-up never changes whether completion is due. |
| MemoryCards.MemoryGame.InitMemoryCards | sitio_yoss/public/js/components/memoryCards.js:21-55 | With zero cards nothing changes. Otherwise card `i` becomes `Configured(card, i)` and the handlers are attached. The completion check then runs once: when every card was already flipped, the message is found or created as in `CheckAllCardsRevealed` and its reveal is queued; otherwise no message is created or scheduled. |
| MemoryCards.MemoryGame.CardClick | sitio_yoss/public/js/components/memoryCards.js:61-80 | A click toggles only that card. Only a flip up schedules the 800 ms check. |
| MemoryCards.MemoryGame.CheckTimer | sitio_yoss/public/js/components/memoryCards.js:76-78 | The check uses the cards as they are when it fires. One pending check is consumed. When `AllRevealed` holds, the message is found or created as in `CheckAllCardsRevealed` and its reveal is queued; otherwise nothing else changes. |
| MemoryCards.MemoryGame.ShowTimer | sitio_yoss/public/js/components/memoryCards.js:214-216 | The oldest reveal adds `show` to its element, which is visible only if that element is in the document. Nothing else changes. |
| MemoryCards.LastFlipShowsMessage | sitio_yoss/public/js/components/memoryCards.js:61-216 | In a section with every card but one flipped, a click on the last card, its 800 ms check and the 300 ms reveal leave one completion message in the document and shown. |
| LoveLetter.Typewriter.constructor | sitio_yoss/public/js/components/loveLetter.js:120-123 | `startTypewriter` empties the element, sets `typing` and starts at index 0. |
| LoveLetter.Typewriter.Tick | sitio_yoss/public/js/components/loveLetter.js:125-139 | Each tick appends `text[index]` and advances while `index < length`. At the end it stops the interval and removes `typing`, with the whole text shown. A stopped typewriter never changes anything. The prefix property is kept. |
| LoveLetter.TypeOut | sitio_yoss/public/js/components/loveLetter.js:120-139 | A typewriter left alone ends showing exactly the text, without `typing`, after `length + 1` ticks: one per unit and a final one that clears the interval. |
| LoveLetter.LetterPage.constructor | sitio_yoss/public/js/components/loveLetter.js:24-34 | The handlers are attached only when all five elements exist. |
| LoveLetter.LetterPage.OpenButtonClick | sitio_yoss/public/js/components/loveLetter.js:63-86 | Opening shows the modal, locks scrolling, and schedules the envelope and the typewriter start. From a closed letter with no close pending it keeps the prefix invariant. |
| LoveLetter.LetterPage.EnvelopeTimer | sitio_yoss/public/js/components/loveLetter.js:73-75 | The 600 ms timeout opens the envelope. |
| LoveLetter.LetterPage.StartTimer | sitio_yoss/public/js/components/loveLetter.js:78-80 | The 3 s timeout starts a new typewriter on `#letterText` with the letter. |
| LoveLetter.LetterPage.TypeTick | sitio_yoss/public/js/components/loveLetter.js:125-139 | A typewriter's tick on the page keeps the shown text a prefix of the letter. |
| LoveLetter.LetterPage.CloseLetterAsWritten | sitio_yoss/public/js/components/loveLetter.js:91-112 | `closeLetter` as written closes the envelope and schedules the close, leaving the typewriter running. |
| LoveLetter.LetterPage.CloseLetter | sitio_yoss/public/js/components/loveLetter.js:91-112 | The corrected close also stops every typewriter and cancels a pending start, and keeps the prefix invariant. |
| LoveLetter.LetterPage.CloseTimer | sitio_yoss/public/js/components/loveLetter.js:101-111 | The 800 ms timeout hides the modal, unlocks scrolling, empties the text and removes `typing`. |
| LoveLetter.LetterPage.CloseButtonClick | sitio_yoss/public/js/components/loveLetter.js:42-44 | The close button runs `closeLetter` as written: the envelope closes and one more close is pending. The modal, the scroll lock, the other pending timeouts and the typewriters stay as they were, so a running typewriter keeps running. |
| LoveLetter.LetterPage.ModalClick | sitio_yoss/public/js/components/loveLetter.js:47-51 | A click runs `closeLetter` as written only when the backdrop itself is the target; any other click changes nothing. The typewriters are left running either way. |
| LoveLetter.LetterPage.KeyDown | sitio_yoss/public/js/components/loveLetter.js:53-57 | Escape on an active modal runs `closeLetter` as written: the envelope closes and one more close is pending, with everything else unchanged. Any other key, or Escape on a hidden modal, changes nothing. |
| LoveLetter.OpenAndType | sitio_yoss/public/js/components/loveLetter.js:63-139 | After opening the letter and `n` ticks, the modal is active with no close pending, and the only typewriter is still running and shows the first `n` units. |
| LoveLetter.ClosingMidTypingBreaksPrefix | sitio_yoss/public/js/components/loveLetter.js:53-139 | Escape is pressed four ticks into typing. The 100 ms interval ticks eight times during the 800 ms close, so the letter reads `text[..12]` when it is emptied. One more tick leaves it showing unit 12 alone, which is not a prefix of the text. |
| LoveLetter.ClosingLetterMidTypingBreaksPrefix | sitio_yoss/public/js/components/loveLetter.js:91-139 | For the site's letter, `Mi amor, mi ` is emptied and then `c` appears, which is not a prefix of the letter. |
| LoveLetter.ClosingMidTypingKeepsPrefix | sitio_yoss/public/js/components/loveLetter.js:91-139 | The same events with the corrected close `CloseLetter` leave the letter empty: the stopped typewriter's ticks change nothing. |

## Left out

- Canvas drawing is not modelled: `Particle.draw`, `connectParticles` with its line opacities, the lines drawn to the mouse and the `requestAnimationFrame` loop. They are floating-point calls on the canvas API. Only `update` is modelled.
- The randomly generated decorations are not modelled: confetti, sparkles, floating particles, petals and the cursor trail. Their output is random CSS with no contract. `romanticAnimations.js` is not part of this model for the same reason.
- Audio is not modelled: Web Audio in `playCardFlipSound` and the song player.
- `server.js` is not part of this model. It is a static file server over a library.
- IntersectionObserver reveals, `scrollIntoView`, `window.scrollTo` and `history.pushState` are browser APIs. `Navigation.AnchorClick` returns which of them would be called. It does not model their effect.
- Timer delays and interleaving are not modelled. Each callback is a method, and any order of calls allowed by the pending counters is possible. Petal creation and the petal interval in the letter are left out.
- Elements are looked up once. Each modelled element that the source checks for presence is a constructor flag. `startQuiz` and `checkAnswer` use the quiz panels without checking them; the model assumes they exist. The text the counter writes and the question text `Pregunta n` are not modelled.
- Quiz.QuizGame.Start and Quiz.QuizGame.Restart require their own panel to be shown. A click on a hidden button is not modelled. Quiz.QuizGame.Start also requires `Valid`, which holds on the welcome panel whenever it is shown.
- Quiz.CountersBounded states `score <= currentQuestion` only while no advance is pending. Between an answer and its 1.5 s advance the score can be one ahead of `currentQuestion`. It also holds only while the options are answered by pointer clicks: `Quiz.QuizGame.KeyActivateOption` does not keep `Valid`, and `Quiz.DoubleKeyPressOverscores` shows the score reaching 6.
- Navigation.ProgressWidth requires the page to be taller than the window, and so do `ProgressBar`'s constructor and `Scroll` when the fill exists. The source divides by the difference without a guard, and a width of `NaN` or `Infinity` is not modelled.
- The navbar link handler `updateActiveNavLink` is attached only when the navbar exists. `Navigation.NavLinks` models the function, not that registration.
- The scroll-to-top click, which scrolls to the top, is not modelled beyond the button's visibility.
- LoveLetter.LetterPage.OpenButtonClick keeps the prefix invariant only when the modal is closed and no close is pending. A second open while the letter is shown starts a second typewriter on the same element, and that case is outside the invariant.
- LoveLetter.LetterPage.EnvelopeTimer is not cancelled by a close. An envelope timeout that fires after a close reopens the envelope in the hidden modal.
- `document.body.style.overflow` is one property that both the lightbox (main.js lines 382 and 389) and the love letter (loveLetter.js lines 70 and 103) write. The model gives each its own `scrollLocked` flag, so it does not capture that closing one of them also unlocks scrolling under the other. `Lightbox.HandlersKeepConsistent` holds for the lightbox's own handlers only.
- The lightbox alt text and caption are plain strings. The `.polaroid-image` container, which has no `src`, is modelled as a polaroid without an image.

## Findings

| source | as written | input that shows it | evidently intended | confidence | as-written member | corrected member |
|---|---|---|---|---|---|---|
| sitio_yoss/public/js/components/loveLetter.js:91-112 | `closeLetter` empties `#letterText` after 800 ms. It does not clear the typewriter interval or the pending 3 s start, so a running typewriter keeps appending to the emptied letter. The close button, backdrop click and Escape handlers all call it. | Open the letter, let the typewriter show `Mi a`, and press Escape. The 100 ms interval goes on during the 800 ms close, so the letter reads `Mi amor, mi ` when the close empties it. On the next tick it shows `c`. | Closing stops the reveal, so the letter always shows a prefix of its text and is empty once closed. | not executed | LoveLetter.ClosingMidTypingBreaksPrefix | LoveLetter.LetterPage.CloseLetter |
| sitio_yoss/public/js/main.js:544-569 | `checkAnswer` blocks further answers only with `pointer-events: none`. A focused option button still fires `click` on Enter or Space, so a second key press counts the answer again and schedules a second advance. | Tab to the correct option of question 1 and press Enter twice within 1.5 s; do the same on questions 3 and 5. Questions 2 and 4 are skipped, the score ends at 6 of 5, and the grade is "Excelente" instead of "Perfecto". | An answered question takes no further answer (as `button.disabled = true` would give), so the score stays at most the number of questions answered. | not executed | Quiz.DoubleKeyPressOverscores | Quiz.QuizGame.ClickOption |

=== FILE: constellation.dfy ===
/** The constellation canvas of main.js (section 18): a fixed population of
    drifting particles. Every animation frame `Particle.update` moves each
    particle by its velocity and reverses an axis's velocity when the moved
    coordinate lies outside the canvas on that axis. JavaScript numbers are
    modelled as reals; the five `Math.random()` results a particle is born
    from are passed in as a `Draw`. Drawing is not modelled. */
module Constellation {

  /** `particleCount`. */
  const ParticleCount: nat := 60

  /** Position and velocity of one particle. */
  datatype Motion = Motion(x: real, y: real, vx: real, vy: real)

  /** One axis of `update()`: the moved coordinate, and the velocity negated
      when that coordinate is below 0 or above `bound`. */
  function StepAxis(pos: real, v: real, bound: real): (r: (real, real))
    ensures r.0 == pos + v && Abs(r.1) == Abs(v)
    ensures 0.0 <= r.0 <= bound ==> r.1 == v
    ensures r.0 < 0.0 || r.0 > bound ==> r.1 == -v
  {
    var p := pos + v;
    (p, if p < 0.0 || p > bound then -v else v)
  }

  /** One call of `update()` on a canvas of the given size. */
  function Step(m: Motion, width: real, height: real): (n: Motion)
    ensures n.x == m.x + m.vx && n.y == m.y + m.vy
    ensures Abs(n.vx) == Abs(m.vx) && Abs(n.vy) == Abs(m.vy)
  {
    var (x, vx) := StepAxis(m.x, m.vx, width);
    var (y, vy) := StepAxis(m.y, m.vy, height);
    Motion(x, y, vx, vy)
  }

  /** `k` frames. */
  function Steps(m: Motion, width: real, height: real, k: nat): (n: Motion)
    ensures Abs(n.vx) == Abs(m.vx) && Abs(n.vy) == Abs(m.vy)
  {
    if k == 0 then m else Step(Steps(m, width, height, k - 1), width, height)
  }

  function Abs(r: real): real
  {
    if r < 0.0 then -r else r
  }

  /** The soft bound that reflection keeps on one axis: the coordinate is
      inside `[0, bound]`, or its last move took it out and the velocity,
      already reversed, takes it straight back in on the next move. */
  predicate AxisInRange(pos: real, v: real, bound: real)
  {
    || 0.0 <= pos <= bound
    || (pos < 0.0 && v > 0.0 && 0.0 <= pos + v <= bound)
    || (pos > bound && v < 0.0 && 0.0 <= pos + v <= bound)
  }

  predicate InRange(m: Motion, width: real, height: real)
  {
    AxisInRange(m.x, m.vx, width) && AxisInRange(m.y, m.vy, height)
  }

  /** The soft bound is no more than one velocity step outside the canvas. */
  lemma AxisInRangeNearBounds(pos: real, v: real, bound: real)
    requires AxisInRange(pos, v, bound)
    ensures -Abs(v) <= pos <= bound + Abs(v)
  {
  }

  /** One axis of `update()` keeps the soft bound and the speed, and reverses
      the velocity exactly when the moved coordinate is outside the canvas:
      after a reversal the velocity points back inside. */
  lemma {:induction false} StepAxisKeepsRange(pos: real, v: real, bound: real)
    requires bound >= 0.0 && AxisInRange(pos, v, bound)
    ensures var (p, w) := StepAxis(pos, v, bound);
      && AxisInRange(p, w, bound)
      && Abs(w) == Abs(v)
      && (p < 0.0 ==> w >= 0.0)
      && (p > bound ==> w <= 0.0)
  {
  }

  /** Every frame keeps every particle that starts inside the soft bound
      inside it: each coordinate stays within one velocity step of the canvas,
      and the speed on each axis never changes. Positions do leave the canvas
      itself, by up to one step (`LeavesCanvas`). */
  lemma {:induction false} StepsKeepRange(m: Motion, width: real, height: real, k: nat)
    requires width >= 0.0 && height >= 0.0 && InRange(m, width, height)
    ensures var n := Steps(m, width, height, k);
      && InRange(n, width, height)
      && Abs(n.vx) == Abs(m.vx) && Abs(n.vy) == Abs(m.vy)
      && -Abs(m.vx) <= n.x <= width + Abs(m.vx)
      && -Abs(m.vy) <= n.y <= height + Abs(m.vy)
  {
    if k > 0 {
      StepsKeepRange(m, width, height, k - 1);
      var p := Steps(m, width, height, k - 1);
      StepAxisKeepsRange(p.x, p.vx, width);
      StepAxisKeepsRange(p.y, p.vy, height);
    }
    var n := Steps(m, width, height, k);
    AxisInRangeNearBounds(n.x, n.vx, width);
    AxisInRangeNearBounds(n.y, n.vy, height);
  }

  /** A particle on the left edge moving left is outside the canvas after
      one frame: the reversal happens after the move. */
  lemma LeavesCanvas()
    ensures Step(Motion(0.0, 10.0, -0.25, 0.0), 100.0, 100.0).x < 0.0
  {
  }

  /** The five `Math.random()` results, each in `[0, 1)`, that one
      `new Particle()` consumes, in the order the constructor draws them. */
  datatype Draw = Draw(x: real, y: real, vx: real, vy: real, radius: real)

  predicate UnitInterval(r: real)
  {
    0.0 <= r < 1.0
  }

  predicate ValidDraw(d: Draw)
  {
    UnitInterval(d.x) && UnitInterval(d.y) && UnitInterval(d.vx) && UnitInterval(d.vy) && UnitInterval(d.radius)
  }

  /** The motion `new Particle()` starts with. */
  function Spawn(d: Draw, width: real, height: real): (m: Motion)
    requires ValidDraw(d) && width >= 0.0 && height >= 0.0
    ensures 0.0 <= m.x <= width && 0.0 <= m.y <= height
    ensures -0.25 <= m.vx < 0.25 && -0.25 <= m.vy < 0.25
  {
    Motion(Scale(d.x, width), Scale(d.y, height), (d.vx - 0.5) * 0.5, (d.vy - 0.5) * 0.5)
  }

  lemma ProductNonNegative(a: real, b: real)
    requires a >= 0.0 && b >= 0.0
    ensures a * b >= 0.0
  {
  }

  /** `Math.random() * bound`. */
  function Scale(r: real, bound: real): (p: real)
    requires UnitInterval(r) && bound >= 0.0
    ensures 0.0 <= p <= bound
  {
    ProductNonNegative(r, bound);
    ProductNonNegative(1.0 - r, bound);
    assert bound - r * bound == (1.0 - r) * bound;
    r * bound
  }

  /** A new particle lies on the canvas and moves by less than a quarter of a
      pixel per frame on each axis. */
  lemma {:induction false} SpawnInRange(d: Draw, width: real, height: real)
    requires ValidDraw(d) && width >= 0.0 && height >= 0.0
    ensures InRange(Spawn(d, width, height), width, height)
  {
  }

  class Particle {
    var x: real
    var y: real
    var vx: real
    var vy: real
    var radius: real

    function State(): Motion
      reads this
    {
      Motion.Motion(x, y, vx, vy)
    }

    /** `new Particle()` on a canvas of the given size. */
    constructor (width: real, height: real, d: Draw)
      requires width >= 0.0 && height >= 0.0 && ValidDraw(d)
      ensures State() == Spawn(d, width, height) && radius == d.radius * 2.0 + 1.0
      ensures InRange(State(), width, height) && 1.0 <= radius < 3.0
    {
      x := Scale(d.x, width);
      y := Scale(d.y, height);
      vx := (d.vx - 0.5) * 0.5;
      vy := (d.vy - 0.5) * 0.5;
      radius := d.radius * 2.0 + 1.0;
      SpawnInRange(d, width, height);
    }

    /** `update()`: move by the velocity, then reverse each axis's velocity
        when the new coordinate is outside `[0, width]` (respectively
        `[0, height]`). The radius does not change. */
    method Update(width: real, height: real)
      modifies this
      ensures x == old(x) + old(vx) && y == old(y) + old(vy)
      ensures vx == (if x < 0.0 || x > width then -old(vx) else old(vx))
      ensures vy == (if y < 0.0 || y > height then -old(vy) else old(vy))
      ensures radius == old(radius)
      ensures State() == Step(old(State()), width, height)
    {
      x := x + vx;
      y := y + vy;
      if x < 0.0 || x > width {
        vx := vx * -1.0;
      }
      if y < 0.0 || y > height {
        vy := vy * -1.0;
      }
    }
  }

  /** The canvas and its particle array. */
  class Field {
    /** `#constellation-canvas` exists; without it `initConstellation`
        returns at once, so no particle, listener or frame exists. */
    const present: bool
    var width: nat
    var height: nat
    var particles: seq<Particle>

    ghost predicate Distinct()
      reads this
    {
      forall i, j :: 0 <= i < j < |particles| ==> particles[i] != particles[j]
    }

    ghost predicate Valid()
      reads this, particles
    {
      && Distinct()
      && (!present ==> particles == [])
      && forall i :: 0 <= i < |particles| ==> InRange(particles[i].State(), width as real, height as real)
    }

    /** `initConstellation`: with a canvas, it is sized to the window and
        the particles are created once the size is set; without one,
        nothing is created. */
    constructor (present: bool, width: nat, height: nat, draws: seq<Draw>)
      requires |draws| == ParticleCount && forall i :: 0 <= i < |draws| ==> ValidDraw(draws[i])
      ensures Valid() && this.present == present
      ensures present ==> this.width == width && this.height == height && |particles| == ParticleCount
      ensures present ==>
        forall i :: 0 <= i < |particles| ==> particles[i].State() == Spawn(draws[i], width as real, height as real)
      ensures !present ==> particles == []
    {
      this.present := present;
      this.width, this.height := width, height;
      particles := [];
      new;
      if present {
        InitParticles(draws);
      }
    }

    /** `initParticles`: the array is replaced by exactly `particleCount` new
        particles; the previous ones are dropped. */
    method InitParticles(draws: seq<Draw>)
      requires present
      requires |draws| == ParticleCount && forall i :: 0 <= i < |draws| ==> ValidDraw(draws[i])
      modifies this
      ensures Valid() && width == old(width) && height == old(height)
      ensures |particles| == ParticleCount
      ensures forall i :: 0 <= i < |particles| ==> fresh(particles[i])
      ensures forall i :: 0 <= i < |particles| ==> particles[i].State() == Spawn(draws[i], width as real, height as real)
    {
      particles := [];
      var i := 0;
      while i < ParticleCount
        invariant 0 <= i <= ParticleCount && |particles| == i
        invariant width == old(width) && height == old(height)
        invariant forall k :: 0 <= k < i ==> fresh(particles[k])
        invariant forall k :: 0 <= k < i ==> particles[k].State() == Spawn(draws[k], width as real, height as real)
        invariant Valid()
      {
        var p := new Particle(width as real, height as real, draws[i]);
        particles := particles + [p];
        i := i + 1;
      }
    }

    /** The `resize` listener: the canvas takes the window's size and the
        particles are created anew. */
    method Resize(newWidth: nat, newHeight: nat, draws: seq<Draw>)
      requires Valid()
      requires |draws| == ParticleCount && forall i :: 0 <= i < |draws| ==> ValidDraw(draws[i])
      modifies this
      ensures Valid()
      ensures !present ==> unchanged(this)
      ensures present ==> width == newWidth && height == newHeight && |particles| == ParticleCount
      ensures present ==> forall i :: 0 <= i < |particles| ==> fresh(particles[i])
      ensures present ==>
        forall i :: 0 <= i < |particles| ==> particles[i].State() == Spawn(draws[i], width as real, height as real)
    {
      if !present {
        return;
      }
      width, height := newWidth, newHeight;
      InitParticles(draws);
    }

    /** The motion part of one `animate()` frame: `update()` on every
        particle in array order. */
    method Animate()
      requires Valid()
      modifies particles
      ensures Valid()
      ensures forall i :: 0 <= i < |particles| ==>
        particles[i].State() == Step(old(particles[i].State()), width as real, height as real)
      ensures forall i :: 0 <= i < |particles| ==> particles[i].radius == old(particles[i].radius)
    {
      var i := 0;
      while i < |particles|
        invariant 0 <= i <= |particles|
        invariant forall k :: 0 <= k < i ==>
          particles[k].State() == Step(old(particles[k].State()), width as real, height as real)
        invariant forall k :: i <= k < |particles| ==> particles[k].State() == old(particles[k].State())
        invariant forall k :: 0 <= k < |particles| ==> particles[k].radius == old(particles[k].radius)
      {
        particles[i].Update(width as real, height as real);
        i := i + 1;
      }
      forall k | 0 <= k < |particles|
        ensures InRange(particles[k].State(), width as real, height as real)
      {
        var m := old(particles[k].State());
        StepAxisKeepsRange(m.x, m.vx, width as real);
        StepAxisKeepsRange(m.y, m.vy, height as real);
      }
    }
  }
}

=== FILE: lightbox.dfy ===
/** The photo lightbox of main.js (section 12, `initLightbox`). Each
    `.polaroid` is described by what its click handler reads from it; the
    modal's visible state is a `Screen`, and `document.body.style.overflow`
    is the flag `scrollLocked` (`'hidden'` when set, `''` when clear). */
module Lightbox {

  import opened Wrappers
  import opened Text

  const PlaceholderMarker: string := "polaroid-placeholder"

  /** What a polaroid's click handler finds: the `src` of its image element
      (`None` when there is none, or when the matched element has no `src`,
      as the `.polaroid-image` container does), and the text of its
      `.polaroid-caption` (`None` when there is no caption element). */
  datatype Polaroid = Polaroid(imageSrc: Option<string>, caption: Option<string>)

  /** The modal as the page shows it. */
  datatype Screen = Screen(active: bool, imageSrc: string, imageAlt: string, caption: string, scrollLocked: bool)

  /** The image of a polaroid is copied into the modal only when it has a
      non-empty source that is not the placeholder picture. */
  predicate HasRealImage(p: Polaroid)
  {
    p.imageSrc.Some? && p.imageSrc.value != "" && !Includes(p.imageSrc.value, PlaceholderMarker)
  }

  /** `caption ? caption.textContent : ''`. */
  function AltText(p: Polaroid): string
  {
    if p.caption.Some? then p.caption.value else ""
  }

  /** A polaroid click on a page that has the image and (when
      `captionElement`) the caption element of the modal. */
  function Opened(s: Screen, p: Polaroid, captionElement: bool): (r: Screen)
    ensures r.active && r.scrollLocked
    ensures HasRealImage(p) ==> r.imageSrc == p.imageSrc.value && r.imageAlt == AltText(p)
    ensures !HasRealImage(p) ==> r.imageSrc == s.imageSrc && r.imageAlt == s.imageAlt
    ensures captionElement && p.caption.Some? ==> r.caption == p.caption.value
    ensures !(captionElement && p.caption.Some?) ==> r.caption == s.caption
  {
    var s1 := if HasRealImage(p) then s.(imageSrc := p.imageSrc.value, imageAlt := AltText(p)) else s;
    var s2 := if captionElement && p.caption.Some? then s1.(caption := p.caption.value) else s1;
    s2.(active := true, scrollLocked := true)
  }

  /** `closeLightbox`: the modal is hidden and scrolling restored; the image
      and caption stay as they were. */
  function Closed(s: Screen): (r: Screen)
    ensures !r.active && !r.scrollLocked
    ensures r.imageSrc == s.imageSrc && r.imageAlt == s.imageAlt && r.caption == s.caption
  {
    s.(active := false, scrollLocked := false)
  }

  /** The document `keydown` handler: Escape closes an open modal; any other
      key, or Escape on a closed modal, changes nothing. */
  function AfterKey(s: Screen, key: string): (r: Screen)
    ensures r.imageSrc == s.imageSrc && r.imageAlt == s.imageAlt && r.caption == s.caption
    ensures r.active ==> r == s
  {
    if key == "Escape" && s.active then Closed(s) else s
  }

  /** The modal never shows the placeholder picture unless it already did:
      opening from a placeholder polaroid keeps the earlier image. */
  lemma {:induction false} NeverShowsPlaceholder(s: Screen, p: Polaroid, captionElement: bool)
    requires !Includes(s.imageSrc, PlaceholderMarker)
    ensures !Includes(Opened(s, p, captionElement).imageSrc, PlaceholderMarker)
  {
    var r := Opened(s, p, captionElement);
    if HasRealImage(p) {
      assert r.imageSrc == p.imageSrc.value;
    } else {
      assert r.imageSrc == s.imageSrc;
    }
  }

  /** Escape closes exactly an open modal: it changes the screen if and only
      if the key is Escape and the modal is active, and then the result is
      what the close button gives. */
  lemma {:induction false} EscapeClosesOnlyOpenModal(s: Screen, key: string)
    ensures AfterKey(s, key) != s <==> key == "Escape" && s.active
    ensures key == "Escape" && s.active ==> AfterKey(s, key) == Closed(s)
  {
    if key == "Escape" && s.active {
      assert AfterKey(s, key).active != s.active;
    }
  }

  /** Clicking the same polaroid twice shows what one click shows, and
      opening then closing leaves the image and caption of that polaroid
      in place for the next time the modal is seen. */
  lemma {:induction false} OpenIdempotent(s: Screen, p: Polaroid, captionElement: bool)
    ensures Opened(Opened(s, p, captionElement), p, captionElement) == Opened(s, p, captionElement)
    ensures var c := Closed(Opened(s, p, captionElement));
      !c.active && (HasRealImage(p) ==> c.imageSrc == p.imageSrc.value)
  {
    var o := Opened(s, p, captionElement);
    var oo := Opened(o, p, captionElement);
    assert oo.imageSrc == o.imageSrc && oo.imageAlt == o.imageAlt && oo.caption == o.caption;
  }

  /** The modal and the page lock the background scroll together. */
  predicate Consistent(s: Screen)
  {
    s.active == s.scrollLocked
  }

  /** Every handler keeps the modal and the scroll lock in step. */
  lemma {:induction false} HandlersKeepConsistent(s: Screen, p: Polaroid, captionElement: bool, key: string)
    requires Consistent(s)
    ensures Consistent(Opened(s, p, captionElement))
    ensures Consistent(Closed(s))
    ensures Consistent(AfterKey(s, key))
  {
    var o := Opened(s, p, captionElement);
    assert o.active && o.scrollLocked;
  }

  /** The lightbox elements of one page and the handlers `initLightbox`
      attaches to them. */
  class LightboxModal {
    var active: bool
    var imageSrc: string
    var imageAlt: string
    var caption: string
    var scrollLocked: bool
    /** `#lightbox` exists, so `initLightbox` attached its handlers. */
    const wired: bool
    /** `#lightboxImage` exists. */
    const imageElement: bool
    /** `#lightboxCaption` exists. */
    const captionElement: bool
    /** `.lightbox-close` exists. */
    const closeButton: bool

    function View(): Screen
      reads this
    {
      Screen(active, imageSrc, imageAlt, caption, scrollLocked)
    }

    constructor (wired: bool, imageElement: bool, captionElement: bool, closeButton: bool, initial: Screen)
      ensures View() == initial
      ensures this.wired == wired && this.imageElement == imageElement
      ensures this.captionElement == captionElement && this.closeButton == closeButton
    {
      this.wired, this.imageElement := wired, imageElement;
      this.captionElement, this.closeButton := captionElement, closeButton;
      active, imageSrc, imageAlt, caption, scrollLocked :=
        initial.active, initial.imageSrc, initial.imageAlt, initial.caption, initial.scrollLocked;
    }

    /** A click on polaroid `p`. Without `#lightboxImage` the handler throws
        at the image assignment when `p` has a real image, before anything
        changes. */
    method PolaroidClick(p: Polaroid)
      modifies this
      ensures wired && (imageElement || !HasRealImage(p)) ==>
        View() == Opened(old(View()), p, captionElement)
      ensures !wired || (!imageElement && HasRealImage(p)) ==> View() == old(View())
    {
      if !wired {
        return;
      }
      if HasRealImage(p) {
        if !imageElement {
          return;
        }
        imageSrc := p.imageSrc.value;
        imageAlt := if p.caption.Some? then p.caption.value else "";
      }
      if captionElement && p.caption.Some? {
        caption := p.caption.value;
      }
      active := true;
      scrollLocked := true;
    }

    /** `closeLightbox`. */
    method Close()
      modifies this
      ensures View() == Closed(old(View()))
    {
      active := false;
      scrollLocked := false;
    }

    /** A click on the close button. */
    method CloseButtonClick()
      modifies this
      ensures wired && closeButton ==> View() == Closed(old(View()))
      ensures !(wired && closeButton) ==> View() == old(View())
    {
      if wired && closeButton {
        Close();
      }
    }

    /** A click inside the modal: it closes only when the backdrop itself is
        the target, not the image or the caption. */
    method ModalClick(targetIsBackdrop: bool)
      modifies this
      ensures wired && targetIsBackdrop ==> View() == Closed(old(View()))
      ensures !(wired && targetIsBackdrop) ==> View() == old(View())
    {
      if wired && targetIsBackdrop {
        Close();
      }
    }

    /** A key press anywhere on the page. */
    method KeyDown(key: string)
      modifies this
      ensures wired ==> View() == AfterKey(old(View()), key)
      ensures !wired ==> View() == old(View())
    {
      if wired && key == "Escape" && active {
        Close();
      }
    }
  }
}

=== FILE: love_letter.dfy ===
/** The love letter of loveLetter.js. `#letterText` is a `LetterText`; every
    call of `startTypewriter` is a `Typewriter`, the state of its interval
    closure. JavaScript strings are sequences of UTF-16 code units and
    `charAt` takes one unit at a time, so the letter is a sequence of code
    units: its closing emoji is two of them, and the typewriter shows the
    first on its own for one tick. The 600 ms, 3000 ms and 800 ms timeouts
    and the 100 ms interval are methods called when they fire. */
module LoveLetter {

  /** The letter up to its last line's emoji; every character of it lies in
      the Basic Multilingual Plane, so each is one code unit. */
  const LetterBmp: string :=
    "Mi amor, mi cariñito...\n" +
    "\n" +
    "Hay palabras que llevaba tiempo queriendo decirte, pero que solo ahora encuentro el momento perfecto para expresar.\n" +
    "\n" +
    "Cuando volvimos a hablar después de más de dos años, sentí algo que no esperaba: la certeza de que lo que teníamos nunca se había ido realmente. Estaba ahí, esperando, como si el tiempo no hubiera pasado.\n" +
    "\n" +
    "Admiro profundamente quién eres. Tu disciplina para estudiar medicina, tu pasión, tu autenticidad... Todo eso me hace querer ser mejor persona cada día.\n" +
    "\n" +
    "Cuando pienso en el futuro, en construir algo bonito, en crear momentos que importen... te imagino ahí. A mi lado. Sonriendo. Siendo tú misma.\n" +
    "\n" +
    "No sé exactamente qué nos depara el destino, pero sí sé que quiero descubrirlo contigo.\n" +
    "\n" +
    "Porque después de todo este tiempo, de todas las circunstancias, de todo lo vivido... seguimos aquí. Y eso tiene que significar algo.\n" +
    "\n" +
    "Gracias por volver. Gracias por quedarte. Gracias por ser tú.\n" +
    "\n" +
    "Con todo mi corazón,\n" +
    "Siempre tuyo "

  /** The code units of a string made of Basic Multilingual Plane
      characters. */
  function Units(s: string): (u: seq<int>)
    ensures |u| == |s| && forall i :: 0 <= i < |s| ==> u[i] == s[i] as int
  {
    seq(|s|, i requires 0 <= i < |s| => s[i] as int)
  }

  /** `LETTER_CONTENT`: the text above followed by U+1F496 as its surrogate
      pair. */
  const Letter: seq<int> := Units(LetterBmp) + [0xD83D, 0xDC96]

  predicate IsPrefix(shown: seq<int>, text: seq<int>)
  {
    |shown| <= |text| && shown == text[..|shown|]
  }

  /** The `#letterText` element: its text and its `typing` class. */
  class LetterText {
    var content: seq<int>
    var typing: bool

    constructor (content: seq<int>, typing: bool)
      ensures this.content == content && this.typing == typing
    {
      this.content, this.typing := content, typing;
    }
  }

  /** One `startTypewriter(element, text)` call and its interval. */
  class Typewriter {
    const element: LetterText
    const text: seq<int>
    /** The closure variable `index`. */
    var index: nat
    /** The interval has not been cleared. */
    var running: bool

    /** The element shows the first `index` units of the text. */
    ghost predicate ShowsPrefix()
      reads this, element
    {
      index <= |text| && element.content == text[..index] && (running ==> element.typing)
    }

    /** The call itself: the element is emptied and gets `typing`, and the
        interval starts at index 0. */
    constructor (element: LetterText, text: seq<int>)
      modifies element
      ensures this.element == element && this.text == text
      ensures index == 0 && running
      ensures element.content == [] && element.typing
      ensures ShowsPrefix()
    {
      this.element, this.text := element, text;
      index, running := 0, true;
      new;
      element.content := [];
      element.typing := true;
    }

    /** One firing of the interval: append the next unit, or, once every
        unit is shown, clear the interval and remove `typing`. A cleared
        interval never fires again, so a tick after that changes nothing. */
    method Tick()
      modifies this, element
      ensures old(running) && old(index) < |text| ==>
        && element.content == old(element.content) + [text[old(index)]]
        && index == old(index) + 1 && running && element.typing == old(element.typing)
      ensures old(running) && old(index) >= |text| ==>
        && element.content == old(element.content) && index == old(index)
        && !running && !element.typing
      ensures !old(running) ==> unchanged(this, element)
      ensures old(ShowsPrefix()) ==> ShowsPrefix()
      ensures old(ShowsPrefix()) && old(running) && !running ==> element.content == text
    {
      if !running {
        return;
      }
      if index < |text| {
        element.content := element.content + [text[index]];
        index := index + 1;
      } else {
        running := false;
        element.typing := false;
      }
    }
  }

  /** A typewriter left alone shows the whole text and drops `typing` after
      exactly one tick per unit and one final tick; at every step before
      that, what it shows is the prefix it has reached. */
  method TypeOut(text: seq<int>) returns (shown: seq<int>, typing: bool, ticks: nat)
    ensures shown == text && !typing && ticks == |text| + 1
  {
    var element := new LetterText([], false);
    var writer := new Typewriter(element, text);
    ticks := 0;
    while writer.running
      invariant writer.element == element && writer.text == text
      invariant writer.ShowsPrefix()
      invariant writer.running ==> ticks == writer.index
      invariant !writer.running ==> writer.index == |text| && ticks == |text| + 1 && !element.typing
      decreases |text| - writer.index + (if writer.running then 1 else 0)
    {
      writer.Tick();
      ticks := ticks + 1;
    }
    shown, typing := element.content, element.typing;
  }

  /** The letter section of one page. */
  class LetterPage {
    /** All five elements exist, so `initLoveLetter` attached the handlers;
        with any of them missing it only warns. */
    const wired: bool
    const letter: LetterText
    /** The text the typewriters type: `LETTER_CONTENT` on the site. */
    const text: seq<int>
    /** `#loveLetterModal` has `active`. */
    var modalActive: bool
    /** `.envelope-container` has `opened`. */
    var envelopeOpened: bool
    /** `document.body.style.overflow` is `'hidden'`. */
    var scrollLocked: bool
    /** Timeouts scheduled and not yet fired: the 600 ms envelope opening,
        the 3000 ms typewriter start and the 800 ms close. */
    var pendingEnvelopes: nat
    var pendingStarts: nat
    var pendingCloses: nat
    /** Every typewriter started on this page, oldest first. */
    var typewriters: seq<Typewriter>

    ghost predicate NoneRunning()
      reads this, typewriters
    {
      forall i :: 0 <= i < |typewriters| ==> !typewriters[i].running
    }

    /** The letter always shows a prefix of `LETTER_CONTENT`: at most one
        typewriter (or one pending start) is alive, and while one runs the
        element shows exactly the units it has typed. Nothing is alive
        once the modal is closed or a close is pending. */
    ghost predicate Valid()
      reads this, letter, typewriters
    {
      && (forall i :: 0 <= i < |typewriters| ==>
            typewriters[i].element == letter && typewriters[i].text == text && typewriters[i].index <= |text|)
      && (forall i, j :: 0 <= i < j < |typewriters| ==> typewriters[i] != typewriters[j])
      && (forall i, j :: 0 <= i < |typewriters| && 0 <= j < |typewriters| &&
            typewriters[i].running && typewriters[j].running
            ==> i == j)
      && (forall i :: 0 <= i < |typewriters| && typewriters[i].running ==>
            && pendingStarts == 0 && pendingCloses == 0
            && letter.typing && letter.content == text[..typewriters[i].index])
      && IsPrefix(letter.content, text)
      && pendingStarts <= 1
      && (pendingCloses > 0 ==> pendingStarts == 0)
      && (!modalActive ==> pendingStarts == 0 && NoneRunning())
    }

    /** Page load with an empty `#letterText`, followed by `initLoveLetter`
        on a page where each of its five elements is present or not. */
    constructor (openButton: bool, modal: bool, closeButton: bool, envelope: bool, letterText: bool, text: seq<int>)
      ensures wired <==> openButton && modal && closeButton && envelope && letterText
      ensures Valid() && fresh(letter) && this.text == text
      ensures letter.content == [] && !letter.typing
      ensures !modalActive && !envelopeOpened && !scrollLocked
      ensures pendingEnvelopes == 0 && pendingStarts == 0 && pendingCloses == 0 && typewriters == []
    {
      wired := openButton && modal && closeButton && envelope && letterText;
      this.text := text;
      letter := new LetterText([], false);
      modalActive, envelopeOpened, scrollLocked := false, false, false;
      pendingEnvelopes, pendingStarts, pendingCloses := 0, 0, 0;
      typewriters := [];
    }

    /** A click on the open button (`openLetter`): the modal shows, the
        page stops scrolling, and the envelope and typewriter timeouts are
        scheduled. The invariant is kept when the letter was closed and no
        close is pending: the open button is then the only way in. */
    method OpenButtonClick()
      modifies this
      ensures !wired ==> unchanged(this)
      ensures wired ==> modalActive && scrollLocked
      ensures wired ==> pendingEnvelopes == old(pendingEnvelopes) + 1 && pendingStarts == old(pendingStarts) + 1
      ensures envelopeOpened == old(envelopeOpened) && pendingCloses == old(pendingCloses)
      ensures typewriters == old(typewriters)
      ensures old(Valid()) && !old(modalActive) && old(pendingCloses) == 0 ==> Valid()
    {
      if wired {
        modalActive := true;
        scrollLocked := true;
        pendingEnvelopes := pendingEnvelopes + 1;
        pendingStarts := pendingStarts + 1;
      }
    }

    /** The 600 ms timeout of `openLetter`. */
    method EnvelopeTimer()
      requires pendingEnvelopes > 0
      modifies this
      ensures envelopeOpened && pendingEnvelopes == old(pendingEnvelopes) - 1
      ensures modalActive == old(modalActive) && scrollLocked == old(scrollLocked)
      ensures pendingStarts == old(pendingStarts) && pendingCloses == old(pendingCloses)
      ensures typewriters == old(typewriters)
      ensures old(Valid()) ==> Valid()
    {
      pendingEnvelopes := pendingEnvelopes - 1;
      envelopeOpened := true;
    }

    /** The 3000 ms timeout of `openLetter`: a new typewriter on
        `#letterText`. */
    method StartTimer()
      requires pendingStarts > 0
      modifies this, letter
      ensures pendingStarts == old(pendingStarts) - 1
      ensures |typewriters| == |old(typewriters)| + 1 && typewriters[..|old(typewriters)|] == old(typewriters)
      ensures var w := typewriters[|old(typewriters)|];
        fresh(w) && w.element == letter && w.text == text && w.index == 0 && w.running
      ensures letter.content == [] && letter.typing
      ensures modalActive == old(modalActive) && scrollLocked == old(scrollLocked)
      ensures envelopeOpened == old(envelopeOpened)
      ensures pendingEnvelopes == old(pendingEnvelopes) && pendingCloses == old(pendingCloses)
      ensures old(Valid()) ==> Valid()
    {
      pendingStarts := pendingStarts - 1;
      var w := new Typewriter(letter, text);
      typewriters := typewriters + [w];
    }

    /** Typewriter `k`'s interval fires. */
    method TypeTick(k: nat)
      requires k < |typewriters| && typewriters[k].element == letter
      modifies typewriters[k], letter
      ensures var w := typewriters[k];
        && (old(w.running) && old(w.index) < |w.text| ==>
              letter.content == old(letter.content) + [w.text[old(w.index)]]
              && w.index == old(w.index) + 1 && w.running && letter.typing == old(letter.typing))
        && (old(w.running) && old(w.index) >= |w.text| ==>
              letter.content == old(letter.content) && w.index == old(w.index) && !w.running && !letter.typing)
        && (!old(w.running) ==> unchanged(w, letter))
      ensures old(Valid()) ==> Valid()
    {
      typewriters[k].Tick();
    }

    /** `closeLetter` as written: the envelope closes and the 800 ms close is
        scheduled. The typewriter interval and a typewriter start that has
        not fired yet are left alone. */
    method CloseLetterAsWritten()
      modifies this
      ensures !envelopeOpened && pendingCloses == old(pendingCloses) + 1
      ensures modalActive == old(modalActive) && scrollLocked == old(scrollLocked)
      ensures pendingEnvelopes == old(pendingEnvelopes) && pendingStarts == old(pendingStarts)
      ensures typewriters == old(typewriters)
    {
      envelopeOpened := false;
      pendingCloses := pendingCloses + 1;
    }

    /** `closeLetter` as its own close timeout needs it: it also clears the
        interval of every typewriter and cancels a typewriter start still
        pending, so nothing types into the letter after it is emptied. */
    method CloseLetter()
      modifies this, typewriters
      ensures !envelopeOpened && pendingCloses == old(pendingCloses) + 1
      ensures pendingStarts == 0 && NoneRunning()
      ensures typewriters == old(typewriters)
      ensures forall i :: 0 <= i < |typewriters| ==> typewriters[i].index == old(typewriters[i].index)
      ensures modalActive == old(modalActive) && scrollLocked == old(scrollLocked)
      ensures pendingEnvelopes == old(pendingEnvelopes)
      ensures old(Valid()) ==> Valid()
    {
      var i := 0;
      while i < |typewriters|
        invariant 0 <= i <= |typewriters|
        invariant unchanged(this)
        invariant forall k :: 0 <= k < i ==> !typewriters[k].running
        invariant forall k :: 0 <= k < |typewriters| ==> typewriters[k].index == old(typewriters[k].index)
      {
        typewriters[i].running := false;
        i := i + 1;
      }
      envelopeOpened := false;
      pendingStarts := 0;
      pendingCloses := pendingCloses + 1;
    }

    /** The 800 ms timeout of `closeLetter`: the modal hides, scrolling
        comes back, and the letter is emptied and loses `typing`. */
    method CloseTimer()
      requires pendingCloses > 0
      modifies this, letter
      ensures !modalActive && !scrollLocked && letter.content == [] && !letter.typing
      ensures pendingCloses == old(pendingCloses) - 1
      ensures envelopeOpened == old(envelopeOpened)
      ensures pendingEnvelopes == old(pendingEnvelopes) && pendingStarts == old(pendingStarts)
      ensures typewriters == old(typewriters)
      ensures old(Valid()) ==> Valid()
    {
      pendingCloses := pendingCloses - 1;
      modalActive := false;
      scrollLocked := false;
      letter.content := [];
      letter.typing := false;
    }

    /** A click on the close button: `closeLetter` as written. */
    method CloseButtonClick()
      modifies this
      ensures wired ==> !envelopeOpened && pendingCloses == old(pendingCloses) + 1
      ensures !wired ==> envelopeOpened == old(envelopeOpened) && pendingCloses == old(pendingCloses)
      ensures modalActive == old(modalActive) && scrollLocked == old(scrollLocked)
      ensures pendingEnvelopes == old(pendingEnvelopes) && pendingStarts == old(pendingStarts)
      ensures typewriters == old(typewriters)
    {
      if wired {
        CloseLetterAsWritten();
      }
    }

    /** A click in the modal runs `closeLetter` as written, only when the
        backdrop itself is the target. */
    method ModalClick(targetIsBackdrop: bool)
      modifies this
      ensures wired && targetIsBackdrop ==> !envelopeOpened && pendingCloses == old(pendingCloses) + 1
      ensures !(wired && targetIsBackdrop) ==>
        envelopeOpened == old(envelopeOpened) && pendingCloses == old(pendingCloses)
      ensures modalActive == old(modalActive) && scrollLocked == old(scrollLocked)
      ensures pendingEnvelopes == old(pendingEnvelopes) && pendingStarts == old(pendingStarts)
      ensures typewriters == old(typewriters)
    {
      if wired && targetIsBackdrop {
        CloseLetterAsWritten();
      }
    }

    /** A key press: Escape runs `closeLetter` as written, only while the
        modal is active. */
    method KeyDown(key: string)
      modifies this
      ensures wired && key == "Escape" && old(modalActive) ==>
        !envelopeOpened && pendingCloses == old(pendingCloses) + 1
      ensures !(wired && key == "Escape" && old(modalActive)) ==>
        envelopeOpened == old(envelopeOpened) && pendingCloses == old(pendingCloses)
      ensures modalActive == old(modalActive) && scrollLocked == old(scrollLocked)
      ensures pendingEnvelopes == old(pendingEnvelopes) && pendingStarts == old(pendingStarts)
      ensures typewriters == old(typewriters)
    {
      if wired && key == "Escape" && modalActive {
        CloseLetterAsWritten();
      }
    }
  }

  /** A freshly loaded page whose letter was opened and whose typewriter
      has typed `n` units: it shows the first `n` units and is still
      running. */
  method OpenAndType(text: seq<int>, n: nat) returns (page: LetterPage, w: Typewriter)
    requires n <= |text|
    ensures fresh(page) && fresh(page.letter) && fresh(w)
    ensures page.wired && page.text == text && page.typewriters == [w]
    ensures w.element == page.letter && w.text == text && w.running && w.index == n
    ensures page.letter.content == text[..n] && page.letter.typing
    ensures page.modalActive && page.pendingCloses == 0
  {
    page := new LetterPage(true, true, true, true, true, text);
    page.OpenButtonClick();
    page.StartTimer();
    w := page.typewriters[0];
    for i := 0 to n
      invariant page.typewriters == [w] && w.element == page.letter && w.text == text
      invariant w.running && w.index == i && page.letter.content == text[..i] && page.letter.typing
      invariant page.modalActive && page.pendingCloses == 0
    {
      assert text[..i + 1] == text[..i] + [text[i]];
      page.TypeTick(0);
    }
  }

  /** Closing the letter four ticks into the typing, as written. The 100 ms
      interval ticks eight more times during the 800 ms close, so the
      letter reads `text[..12]` when the close timeout empties it; the
      still-running interval then appends the thirteenth unit, which is
      not how the text begins. */
  method ClosingMidTypingBreaksPrefix(text: seq<int>) returns (shown: seq<int>)
    requires |text| > 12 && text[12] != text[0]
    ensures shown == [text[12]] && !IsPrefix(shown, text)
  {
    var page, w := OpenAndType(text, 4);
    page.KeyDown("Escape");
    for i := 4 to 12
      invariant page.typewriters == [w] && w.element == page.letter && w.text == text
      invariant w.running && w.index == i && page.letter.content == text[..i]
      invariant page.pendingCloses == 1
    {
      assert text[..i + 1] == text[..i] + [text[i]];
      page.TypeTick(0);
    }
    page.CloseTimer();
    page.TypeTick(0);
    shown := page.letter.content;
  }

  /** For the site's letter: Escape pressed once `Mi a` is typed; the
      letter reads `Mi amor, mi ` when it is emptied and goes on to show
      `c`, then `cariñito...`. */
  method ClosingLetterMidTypingBreaksPrefix() returns (shown: seq<int>)
    ensures shown == ['c' as int] && !IsPrefix(shown, Letter)
  {
    // The letter opens with `Mi amor, mi c`.
    assert LetterBmp[0] == 'M' && LetterBmp[12] == 'c';
    shown := ClosingMidTypingBreaksPrefix(Letter);
  }

  /** The same events with the corrected close: the letter is left empty,
      and the ticks of the stopped typewriter change nothing. */
  method ClosingMidTypingKeepsPrefix(text: seq<int>) returns (shown: seq<int>)
    requires |text| > 4
    ensures shown == [] && IsPrefix(shown, text)
  {
    var page, w := OpenAndType(text, 4);
    page.CloseLetter();
    assert page.typewriters[0] == w;
    for i := 4 to 12
      invariant page.typewriters == [w] && w.element == page.letter
      invariant !w.running && page.pendingCloses == 1
    {
      page.TypeTick(0);
    }
    page.CloseTimer();
    page.TypeTick(0);
    shown := page.letter.content;
  }
}

=== FILE: memory_cards.dfy ===
/** The memory-card game of memoryCards.js. Each `.memory-card` is a `Card`
    holding what the game reads and writes on it: its `data-message`, the
    text of its `.card-message` and `.card-icon` children (`None` when the
    child is missing) and its `flipped` class. The 800 ms completion check
    and the 300 ms reveal of the completion message are methods called when
    those timeouts fire. */
module MemoryCards {

  import opened Wrappers
  import opened Text

  /** `MEMORY_MESSAGES`. */
  const MemoryMessages: seq<string> := [
    "La primera vez que te vi, supe que eras especial. El tiempo solo lo confirmó.",
    "Tu risa es mi sonido favorito en todo el mundo. Me hace creer que todo va a estar bien.",
    "Admiro tu fortaleza para perseguir tus sueños. Me inspiras a ser mejor cada día.",
    "Cada conversación contigo se siente como volver a casa después de un largo viaje.",
    "Pienso en ti cuando veo algo bonito y pienso: 'Le gustaría ver esto'.",
    "Quiero ser la persona que esté ahí para ti en tus peores días y celebrar contigo en los mejores.",
    "Me encanta cómo eres auténtica. No tienes que fingir conmigo, y yo no tengo que fingir contigo.",
    "El futuro me emociona cuando te imagino en él. Juntos podemos crear algo hermoso."
  ]

  /** `CARD_ICONS`, as code points. */
  const CardIcons: seq<string> := ["\U{1F495}", "\U{1F496}", "\U{1F497}", "\U{1F49D}", "\U{1F498}", "\U{1F49E}", "\U{1F493}", "\U{1F338}"]

  datatype Card = Card(dataMessage: Option<string>, messageText: Option<string>, iconText: Option<string>, flipped: bool)

  /** The message of card `index`: its own non-empty `data-message`, else
      the table entry at `index % 8`. */
  function MessageFor(c: Card, index: nat): (m: string)
    ensures c.dataMessage.Some? && c.dataMessage.value != "" ==> m == c.dataMessage.value
    ensures c.dataMessage.None? || c.dataMessage.value == "" ==> m == MemoryMessages[index % |MemoryMessages|]
  {
    if c.dataMessage.Some? && c.dataMessage.value != "" then c.dataMessage.value
    else MemoryMessages[index % |MemoryMessages|]
  }

  /** Card `index` after the set-up loop of `initMemoryCards`: the message
      is written when the card has a message element, the icon only when
      the icon element holds nothing but whitespace. */
  function Configured(c: Card, index: nat): (r: Card)
    ensures r.dataMessage == c.dataMessage && r.flipped == c.flipped
    ensures c.messageText.Some? ==> r.messageText == Some(MessageFor(c, index))
    ensures c.messageText.None? ==> r.messageText.None?
    ensures c.iconText.Some? && IsBlank(c.iconText.value) ==> r.iconText == Some(CardIcons[index % |CardIcons|])
    ensures c.iconText.None? || !IsBlank(c.iconText.value) ==> r.iconText == c.iconText
  {
    var withMessage := if c.messageText.Some? then c.(messageText := Some(MessageFor(c, index))) else c;
    if c.iconText.Some? && Trim(c.iconText.value) == [] then
      TrimEmptyIffBlank(c.iconText.value);
      withMessage.(iconText := Some(CardIcons[index % |CardIcons|]))
    else
      if c.iconText.Some? then TrimEmptyIffBlank(c.iconText.value); withMessage else withMessage
  }

  /** The tables are reused cyclically: cards eight places apart get the
      same default message and the same default icon. */
  lemma {:induction false} AssignmentIsCyclic(c: Card, index: nat)
    ensures Configured(c, index + 8) == Configured(c, index)
  {
    assert (index + 8) % 8 == index % 8;
    assert MessageFor(c, index + 8) == MessageFor(c, index);
  }

  /** Every default icon starts with a character that is not whitespace. */
  lemma IconsVisible()
    ensures forall k :: 0 <= k < |CardIcons| ==> |CardIcons[k]| > 0 && !IsWhitespace(CardIcons[k][0])
  {
  }

  /** Set-up never overwrites an icon that has visible text, and it fills
      a blank one with a heart that is not blank. */
  lemma {:induction false} IconNeverBlankAfterSetup(c: Card, index: nat)
    requires c.iconText.Some?
    ensures Configured(c, index).iconText.Some?
    ensures !IsBlank(Configured(c, index).iconText.value)
  {
    var r := Configured(c, index);
    if IsBlank(c.iconText.value) {
      var k := index % |CardIcons|;
      IconsVisible();
      assert r.iconText == Some(CardIcons[k]);
      assert !IsWhitespace(r.iconText.value[0]);
    } else {
      assert r.iconText == c.iconText;
    }
  }

  /** The card after a click: `flipped` toggled, nothing else changed. */
  function Flip(c: Card): (r: Card)
    ensures r.flipped == !c.flipped
    ensures r.(flipped := c.flipped) == c
  {
    c.(flipped := !c.flipped)
  }

  /** The number of cards with class `flipped`
      (`.memory-card.flipped`). */
  function CountFlipped(cards: seq<Card>): (n: nat)
    ensures n <= |cards|
  {
    if cards == [] then 0
    else CountFlipped(cards[..|cards| - 1]) + (if cards[|cards| - 1].flipped then 1 else 0)
  }

  /** Counting the flipped cards decides completion exactly: the count
      equals the number of cards if and only if every card is flipped. */
  lemma {:induction false} CountFlippedFullIff(cards: seq<Card>)
    ensures CountFlipped(cards) == |cards| <==> forall i :: 0 <= i < |cards| ==> cards[i].flipped
  {
    if cards != [] {
      var k := |cards| - 1;
      CountFlippedFullIff(cards[..k]);
      assert forall i :: 0 <= i < k ==> cards[..k][i] == cards[i];
    }
  }

  /** The test of `checkAllCardsRevealed`: completion is due exactly when
      there is at least one card and every card is flipped. */
  predicate AllRevealed(cards: seq<Card>)
    ensures AllRevealed(cards) <==> |cards| > 0 && forall i :: 0 <= i < |cards| ==> cards[i].flipped
  {
    CountFlippedFullIff(cards);
    |cards| > 0 && CountFlipped(cards) == |cards|
  }

  /** Two clicks on the same card leave every card as it was. */
  lemma {:induction false} FlipTwiceRestores(cards: seq<Card>, i: nat)
    requires i < |cards|
    ensures cards[i := Flip(cards[i])][i := Flip(cards[i := Flip(cards[i])][i])] == cards
  {
    var once := cards[i := Flip(cards[i])];
    assert once[i] == Flip(cards[i]);
    assert Flip(Flip(cards[i])) == cards[i];
  }

  /** Set-up leaves every `flipped` class alone, so it never changes
      whether completion is due. */
  lemma {:induction false} SetupKeepsRevealed(before: seq<Card>, after: seq<Card>)
    requires |after| == |before|
    requires forall i :: 0 <= i < |before| ==> after[i] == Configured(before[i], i)
    ensures AllRevealed(after) <==> AllRevealed(before)
  {
    assert forall i :: 0 <= i < |before| ==> after[i].flipped == before[i].flipped;
  }

  class MemoryGame {
    const cards: array<Card>
    /** `initMemoryCards` found cards and attached the click handlers. */
    var wired: bool
    /** The 800 ms checks scheduled by flips that have not fired yet. */
    var pendingChecks: nat
    /** A `.memory-game` section exists to append the message to. */
    const sectionPresent: bool
    /** A `.memory-completion` element is in the document. */
    var completionInDom: bool
    /** That element has class `show`. */
    var completionShown: bool
    /** How many completion elements `showCompletionMessage` created. */
    var created: nat
    /** The scheduled 300 ms reveals, oldest first; each is `true` when it
        targets the element in the document and `false` when it targets a
        detached one. */
    var pendingShows: seq<bool>

    /** The completion message is created at most once whenever the page
        has a `.memory-game` section; whatever is revealed is in the
        document. */
    ghost predicate Valid()
      reads this
    {
      && (sectionPresent ==> created <= 1 && (created == 1 ==> completionInDom))
      && (completionShown ==> completionInDom)
      && (forall k :: 0 <= k < |pendingShows| && pendingShows[k] ==> completionInDom)
    }

    /** The page as loaded, before `initMemoryCards`. */
    constructor (initial: seq<Card>, sectionPresent: bool, completionInDom: bool)
      ensures Valid() && fresh(cards) && cards[..] == initial
      ensures !wired && pendingChecks == 0 && created == 0 && pendingShows == []
      ensures this.sectionPresent == sectionPresent && this.completionInDom == completionInDom
      ensures !completionShown
    {
      cards := new Card[|initial|](i requires 0 <= i < |initial| => initial[i]);
      this.sectionPresent, this.completionInDom := sectionPresent, completionInDom;
      wired, pendingChecks, completionShown, created, pendingShows := false, 0, false, 0, [];
    }

    /** `showCompletionMessage`: find the message element, or create one
        (appended only when the section exists), and schedule its reveal. */
    method ShowCompletionMessage()
      requires Valid()
      modifies this
      ensures Valid()
      ensures completionInDom == (old(completionInDom) || sectionPresent)
      ensures created == old(created) + (if old(completionInDom) then 0 else 1)
      ensures pendingShows == old(pendingShows) + [completionInDom]
      ensures wired == old(wired) && pendingChecks == old(pendingChecks)
      ensures completionShown == old(completionShown)
    {
      if !completionInDom {
        created := created + 1;
        if sectionPresent {
          completionInDom := true;
        }
      }
      pendingShows := pendingShows + [completionInDom];
    }

    /** `checkAllCardsRevealed`. */
    method CheckAllCardsRevealed()
      requires Valid()
      modifies this
      ensures Valid()
      ensures AllRevealed(cards[..]) ==>
        && completionInDom == (old(completionInDom) || sectionPresent)
        && created == old(created) + (if old(completionInDom) then 0 else 1)
        && pendingShows == old(pendingShows) + [completionInDom]
      ensures !AllRevealed(cards[..]) ==>
        pendingShows == old(pendingShows) && created == old(created) && completionInDom == old(completionInDom)
      ensures created <= old(created) + 1
      ensures wired == old(wired) && pendingChecks == old(pendingChecks)
      ensures completionShown == old(completionShown)
    {
      if cards.Length == 0 {
        return;
      }
      if CountFlipped(cards[..]) == cards.Length {
        ShowCompletionMessage();
      }
    }

    /** The set-up loop of `initMemoryCards`: card `i` gets its message and
        icon. */
    method ConfigureCards()
      modifies cards
      ensures forall i :: 0 <= i < cards.Length ==> cards[i] == Configured(old(cards[i]), i)
    {
      ghost var before := cards[..];
      for i := 0 to cards.Length
        invariant forall k :: 0 <= k < i ==> cards[k] == Configured(before[k], k)
        invariant forall k :: i <= k < cards.Length ==> cards[k] == before[k]
      {
        cards[i] := Configured(cards[i], i);
      }
    }

    /** `initMemoryCards`. With no cards it only warns. Otherwise every card
        gets its message and icon, is wired to `handleCardFlip`, and the
        completion check runs once. */
    method InitMemoryCards()
      requires Valid()
      modifies this, cards
      ensures Valid()
      ensures cards.Length == 0 ==> unchanged(this)
      ensures cards.Length > 0 ==> wired
      ensures forall i :: 0 <= i < cards.Length ==> cards[i] == Configured(old(cards[i]), i)
      ensures AllRevealed(cards[..]) <==> AllRevealed(old(cards[..]))
      ensures AllRevealed(old(cards[..])) ==>
        && completionInDom == (old(completionInDom) || sectionPresent)
        && created == old(created) + (if old(completionInDom) then 0 else 1)
        && pendingShows == old(pendingShows) + [completionInDom]
      ensures !AllRevealed(old(cards[..])) ==>
        pendingShows == old(pendingShows) && created == old(created) && completionInDom == old(completionInDom)
      ensures pendingChecks == old(pendingChecks) && completionShown == old(completionShown)
    {
      if cards.Length == 0 {
        return;
      }
      ConfigureCards();
      SetupKeepsRevealed(old(cards[..]), cards[..]);
      wired := true;
      CheckAllCardsRevealed();
    }

    /** `handleCardFlip` on card `i`: an unflipped card is flipped and the
        completion check is scheduled; a flipped card is turned back and
        nothing is scheduled. */
    method CardClick(i: nat)
      requires i < cards.Length
      modifies this, cards
      ensures wired ==> cards[..] == old(cards[..])[i := Flip(old(cards[i]))]
      ensures wired ==> pendingChecks == old(pendingChecks) + (if cards[i].flipped then 1 else 0)
      ensures !wired ==> cards[..] == old(cards[..]) && pendingChecks == old(pendingChecks)
      ensures wired == old(wired) && created == old(created) && completionInDom == old(completionInDom)
      ensures completionShown == old(completionShown) && pendingShows == old(pendingShows)
    {
      if !wired {
        return;
      }
      cards[i] := Flip(cards[i]);
      if cards[i].flipped {
        pendingChecks := pendingChecks + 1;
      }
    }

    /** A scheduled 800 ms completion check fires; it looks at the cards as
        they are now, not as they were when it was scheduled. */
    method CheckTimer()
      requires Valid() && pendingChecks > 0
      modifies this
      ensures Valid()
      ensures pendingChecks == old(pendingChecks) - 1
      ensures AllRevealed(cards[..]) ==>
        && completionInDom == (old(completionInDom) || sectionPresent)
        && created == old(created) + (if old(completionInDom) then 0 else 1)
        && pendingShows == old(pendingShows) + [completionInDom]
      ensures !AllRevealed(cards[..]) ==>
        pendingShows == old(pendingShows) && created == old(created) && completionInDom == old(completionInDom)
      ensures wired == old(wired) && completionShown == old(completionShown)
    {
      pendingChecks := pendingChecks - 1;
      CheckAllCardsRevealed();
    }

    /** The oldest 300 ms reveal fires: `show` is added to its element,
        which is visible only when that element is in the document. */
    method ShowTimer()
      requires Valid() && pendingShows != []
      modifies this
      ensures Valid()
      ensures pendingShows == old(pendingShows[1..])
      ensures completionShown == (old(completionShown) || old(pendingShows[0]))
      ensures created == old(created) && completionInDom == old(completionInDom)
      ensures wired == old(wired) && pendingChecks == old(pendingChecks)
    {
      var target := pendingShows[0];
      pendingShows := pendingShows[1..];
      if target {
        completionShown := true;
      }
    }
  }

  /** The completion as it happens in play: the last face-down card is
      flipped, its 800 ms check fires, then the 300 ms reveal, and the
      completion message is in the document and shown. */
  method LastFlipShowsMessage(g: MemoryGame, i: nat)
    requires g.Valid() && g.wired && g.sectionPresent && g.pendingShows == []
    requires i < g.cards.Length && !g.cards[i].flipped
    requires forall j :: 0 <= j < g.cards.Length && j != i ==> g.cards[j].flipped
    modifies g, g.cards
    ensures g.Valid() && g.completionInDom && g.completionShown
    ensures g.created <= 1 && g.pendingShows == []
  {
    g.CardClick(i);
    assert AllRevealed(g.cards[..]);
    g.CheckTimer();
    g.ShowTimer();
  }
}

=== FILE: navigation.dfy ===
/** The scroll-driven navigation of navigation.js: the reading progress bar,
    the hide-on-scroll navbar, the active navbar link, the scroll-to-top
    button, the section dots and the smooth-scroll anchors. Scroll offsets
    and element geometry are JavaScript numbers, modelled as reals; every
    handler receives the value of `window.pageYOffset ||
    document.documentElement.scrollTop` it would read as `scrollTop`. */
module Navigation {

  import opened Wrappers

  // ---------------------------------------------------------------- progress

  /** `updateProgressBar`: the percentage of the scrollable height already
      scrolled, capped at 100 by `Math.min`. The page must be taller than
      the window: the source divides by the difference unguarded. */
  function ProgressWidth(scrollTop: real, documentHeight: real, windowHeight: real): (w: real)
    requires documentHeight - windowHeight > 0.0
    ensures w <= 100.0
    ensures w == 100.0 <==> scrollTop >= documentHeight - windowHeight
    ensures scrollTop < documentHeight - windowHeight ==>
      w * (documentHeight - windowHeight) == scrollTop * 100.0
    ensures scrollTop >= 0.0 ==> w >= 0.0
  {
    var total := documentHeight - windowHeight;
    var progress := (scrollTop / total) * 100.0;
    if progress < 100.0 then progress else 100.0
  }

  /** Scrolling further never shrinks the bar. */
  lemma {:induction false} ProgressMonotone(a: real, b: real, documentHeight: real, windowHeight: real)
    requires documentHeight - windowHeight > 0.0 && a <= b
    ensures ProgressWidth(a, documentHeight, windowHeight) <= ProgressWidth(b, documentHeight, windowHeight)
  {
    var total := documentHeight - windowHeight;
    assert b / total - a / total == (b - a) / total;
    assert (b - a) / total >= 0.0;
  }

  class ProgressBar {
    /** `.reading-progress-fill` exists, so the scroll handler is attached. */
    const present: bool
    /** The fill's `style.width`, in percent. */
    var width: real

    /** `initProgressBar`: the first update runs at once. */
    constructor (present: bool, width: real, scrollTop: real, documentHeight: real, windowHeight: real)
      requires present ==> documentHeight - windowHeight > 0.0
      ensures this.present == present
      ensures present ==> this.width == ProgressWidth(scrollTop, documentHeight, windowHeight)
      ensures !present ==> this.width == width
    {
      this.present := present;
      if present {
        this.width := ProgressWidth(scrollTop, documentHeight, windowHeight);
      } else {
        this.width := width;
      }
    }

    /** A `scroll` event. */
    method Scroll(scrollTop: real, documentHeight: real, windowHeight: real)
      requires present ==> documentHeight - windowHeight > 0.0
      modifies this
      ensures present ==> width == ProgressWidth(scrollTop, documentHeight, windowHeight)
      ensures !present ==> width == old(width)
    {
      if present {
        width := ProgressWidth(scrollTop, documentHeight, windowHeight);
      }
    }
  }

  // ------------------------------------------------------------------ navbar

  /** `scrollThreshold`. */
  const NavbarThreshold: real := 200.0

  /** The three classes `updateNavbar` manages on `.romantic-navbar`. */
  datatype NavClass = Visible | ScrollDown | ScrollUp

  /** The class set after `updateNavbar` with the previous offset `last`. */
  function NavbarAfter(classes: set<NavClass>, scrollTop: real, last: real): (r: set<NavClass>)
    ensures Visible in r <==> scrollTop > 200.0
    ensures ScrollDown in r <==> scrollTop > 200.0 && scrollTop > last && scrollTop > 300.0
    ensures ScrollUp in r <==> scrollTop > 200.0 && !(scrollTop > last && scrollTop > 300.0)
  {
    if scrollTop > NavbarThreshold then
      var v := classes + {Visible};
      if scrollTop > last && scrollTop > NavbarThreshold + 100.0 then v + {ScrollDown} - {ScrollUp}
      else v - {ScrollDown} + {ScrollUp}
    else classes - {Visible, ScrollDown, ScrollUp}
  }

  /** The navbar never shows both directions, and shows a direction only
      while it is visible. */
  predicate NavbarConsistent(classes: set<NavClass>)
  {
    && !(ScrollDown in classes && ScrollUp in classes)
    && (ScrollDown in classes || ScrollUp in classes ==> Visible in classes)
  }

  /** Whatever classes the navbar had, one update leaves a consistent set
      that depends only on the two offsets; above the threshold exactly one
      direction is shown. */
  lemma {:induction false} NavbarAfterConsistent(classes: set<NavClass>, other: set<NavClass>, scrollTop: real, last: real)
    ensures NavbarConsistent(NavbarAfter(classes, scrollTop, last))
    ensures NavbarAfter(classes, scrollTop, last) == NavbarAfter(other, scrollTop, last)
    ensures scrollTop > 200.0 ==>
      (ScrollDown in NavbarAfter(classes, scrollTop, last)) != (ScrollUp in NavbarAfter(classes, scrollTop, last))
  {
    var r, s := NavbarAfter(classes, scrollTop, last), NavbarAfter(other, scrollTop, last);
    forall c: NavClass
      ensures c in r <==> c in s
    {
      match c
      case Visible =>
      case ScrollDown =>
      case ScrollUp =>
    }
  }

  /** A scroll event that does not move the page (or moves it up) never
      hides the navbar: past the threshold it shows `scroll-up`. */
  lemma {:induction false} NoDownwardMoveShowsNavbar(classes: set<NavClass>, scrollTop: real, last: real)
    requires scrollTop > 200.0 && scrollTop <= last
    ensures NavbarAfter(classes, scrollTop, last) == {Visible, ScrollUp}
  {
    var r := NavbarAfter(classes, scrollTop, last);
    forall c: NavClass
      ensures c in r <==> c in {Visible, ScrollUp}
    {
      match c
      case Visible =>
      case ScrollDown =>
      case ScrollUp =>
    }
  }

  class Navbar {
    /** `.romantic-navbar` exists, so `updateNavbar` is attached. */
    const present: bool
    /** The closure variable `lastScrollTop` (0 until the first event). */
    var lastScrollTop: real
    var classes: set<NavClass>

    /** `initNavbar` on a navbar with the markup's classes `initial`. */
    constructor (present: bool, initial: set<NavClass>)
      ensures this.present == present && lastScrollTop == 0.0 && classes == initial
    {
      this.present := present;
      lastScrollTop := 0.0;
      classes := initial;
    }

    /** `updateNavbar` on a `scroll` event. */
    method Scroll(scrollTop: real)
      modifies this
      ensures present ==> classes == NavbarAfter(old(classes), scrollTop, old(lastScrollTop))
      ensures present ==> lastScrollTop == scrollTop
      ensures !present ==> classes == old(classes) && lastScrollTop == old(lastScrollTop)
    {
      if !present {
        return;
      }
      if scrollTop > NavbarThreshold {
        classes := classes + {Visible};
        if scrollTop > lastScrollTop && scrollTop > NavbarThreshold + 100.0 {
          classes := classes + {ScrollDown};
          classes := classes - {ScrollUp};
        } else {
          classes := classes - {ScrollDown};
          classes := classes + {ScrollUp};
        }
      } else {
        classes := classes - {Visible, ScrollDown, ScrollUp};
      }
      lastScrollTop := scrollTop;
    }
  }

  // ---------------------------------------------------------- active nav link

  /** A `.section[id]` element: its `id`, `offsetTop`, `offsetHeight` and
      `data-nav-title`. */
  datatype Section = Section(id: string, top: real, height: real, navTitle: Option<string>)

  /** The section contains the reading position. */
  predicate ContainsPosition(s: Section, position: real)
  {
    position >= s.top && position < s.top + s.height
  }

  /** `link.getAttribute('href') === '#' + id`; a link without `href`
      never matches. */
  predicate LinksTo(href: Option<string>, id: string)
  {
    href == Some("#" + id)
  }

  /** The `active` flags of the links after the visit of one section. */
  function VisitSection(active: seq<bool>, hrefs: seq<Option<string>>, s: Section, position: real): (r: seq<bool>)
    requires |active| == |hrefs|
    ensures |r| == |active|
    ensures ContainsPosition(s, position) ==> forall j :: 0 <= j < |r| ==> (r[j] <==> LinksTo(hrefs[j], s.id))
    ensures !ContainsPosition(s, position) ==> r == active
  {
    if ContainsPosition(s, position) then
      seq(|active|, j requires 0 <= j < |active| => LinksTo(hrefs[j], s.id))
    else active
  }

  /** The flags after visiting `sections` in document order. */
  function LinksAfter(active: seq<bool>, hrefs: seq<Option<string>>, sections: seq<Section>, position: real): (r: seq<bool>)
    requires |active| == |hrefs|
    ensures |r| == |active|
    ensures forall j :: 0 <= j < |r| && r[j] && !active[j] ==>
      exists i :: 0 <= i < |sections| && ContainsPosition(sections[i], position) && LinksTo(hrefs[j], sections[i].id)
  {
    if sections == [] then active
    else
      var n := |sections| - 1;
      var before := LinksAfter(active, hrefs, sections[..n], position);
      assert forall i :: 0 <= i < n ==> sections[..n][i] == sections[i];
      VisitSection(before, hrefs, sections[n], position)
  }

  /** When no section contains the reading position, no link changes. */
  lemma {:induction false} NoContainingSectionKeepsLinks(active: seq<bool>, hrefs: seq<Option<string>>, sections: seq<Section>, position: real)
    requires |active| == |hrefs|
    requires forall i :: 0 <= i < |sections| ==> !ContainsPosition(sections[i], position)
    ensures LinksAfter(active, hrefs, sections, position) == active
  {
    if sections != [] {
      var n := |sections| - 1;
      NoContainingSectionKeepsLinks(active, hrefs, sections[..n], position);
    }
  }

  /** The section that decides the active link is the last one in document
      order that contains the reading position: exactly the links pointing
      at it are active, whatever earlier sections matched. */
  lemma {:induction false} LastContainingSectionWins(active: seq<bool>, hrefs: seq<Option<string>>, sections: seq<Section>, position: real, k: nat)
    requires |active| == |hrefs| && k < |sections| && ContainsPosition(sections[k], position)
    requires forall i :: k < i < |sections| ==> !ContainsPosition(sections[i], position)
    ensures forall j :: 0 <= j < |hrefs| ==>
      (LinksAfter(active, hrefs, sections, position)[j] <==> LinksTo(hrefs[j], sections[k].id))
  {
    var n := |sections| - 1;
    var prefix := sections[..n];
    if k < n {
      assert prefix[k] == sections[k];
      assert forall i :: k < i < |prefix| ==> prefix[i] == sections[i];
      LastContainingSectionWins(active, hrefs, prefix, position, k);
      assert LinksAfter(active, hrefs, sections, position) == LinksAfter(active, hrefs, prefix, position);
    }
  }

  /** The navbar links with their `active` class, for `updateActiveNavLink`,
      which `initNavbar` calls once and attaches to `scroll`. */
  class NavLinks {
    const active: array<bool>
    const hrefs: seq<Option<string>>

    constructor (initial: seq<bool>, hrefs: seq<Option<string>>)
      requires |initial| == |hrefs|
      ensures active[..] == initial && this.hrefs == hrefs && fresh(active)
    {
      active := new bool[|initial|](i requires 0 <= i < |initial| => initial[i]);
      this.hrefs := hrefs;
    }

    /** `updateActiveNavLink`, reading at a third of the window below the
        top of the viewport. */
    method Update(pageYOffset: real, innerHeight: real, sections: seq<Section>)
      requires active.Length == |hrefs|
      modifies active
      ensures active[..] == LinksAfter(old(active[..]), hrefs, sections, pageYOffset + innerHeight / 3.0)
    {
      if |sections| == 0 || active.Length == 0 {
        return;
      }
      var position := pageYOffset + innerHeight / 3.0;
      var i := 0;
      while i < |sections|
        invariant 0 <= i <= |sections|
        invariant active[..] == LinksAfter(old(active[..]), hrefs, sections[..i], position)
      {
        var s := sections[i];
        ghost var before := active[..];
        if position >= s.top && position < s.top + s.height {
          var j := 0;
          while j < active.Length
            invariant 0 <= j <= active.Length
            invariant forall k :: 0 <= k < j ==> (active[k] <==> LinksTo(hrefs[k], s.id))
            invariant forall k :: j <= k < active.Length ==> active[k] == before[k]
          {
            active[j] := false;
            if hrefs[j] == Some("#" + s.id) {
              active[j] := true;
            }
            j := j + 1;
          }
        }
        assert sections[..i + 1][..i] == sections[..i];
        assert active[..] == VisitSection(before, hrefs, s, position);
        i := i + 1;
      }
      assert sections[..i] == sections;
    }
  }

  // ----------------------------------------------------------- scroll to top

  class ScrollToTopButton {
    /** `.scroll-to-top` exists, so its handlers are attached. */
    const present: bool
    var visible: bool

    constructor (present: bool, visible: bool)
      ensures this.present == present && this.visible == visible
    {
      this.present, this.visible := present, visible;
    }

    /** `updateScrollToTopButton`: shown past 500 pixels. */
    method Scroll(scrollTop: real)
      modifies this
      ensures present ==> (visible <==> scrollTop > 500.0)
      ensures !present ==> visible == old(visible)
    {
      if present {
        visible := scrollTop > 500.0;
      }
    }
  }

  // ------------------------------------------------------- section indicators

  /** Dot `i` is active while the page is scrolled to between 200 pixels
      above section `i` and 200 pixels above its end. */
  predicate DotActive(s: Section, scrollTop: real)
  {
    scrollTop >= s.top - 200.0 && scrollTop < s.top + s.height - 200.0
  }

  /** The dots after `updateSectionIndicators`: each dot that has a section
      at its index follows that section; dots beyond the sections are left
      as they were, and sections beyond the dots are skipped. */
  function DotsAfter(dots: seq<bool>, sections: seq<Section>, scrollTop: real): (r: seq<bool>)
    ensures |r| == |dots|
    ensures forall i :: 0 <= i < |r| && i < |sections| ==> (r[i] <==> DotActive(sections[i], scrollTop))
    ensures forall i :: |sections| <= i < |r| ==> r[i] == dots[i]
  {
    seq(|dots|, i requires 0 <= i < |dots| => if i < |sections| then DotActive(sections[i], scrollTop) else dots[i])
  }

  /** Sections laid out one after another down the page. */
  predicate NonOverlapping(sections: seq<Section>)
  {
    forall i, j :: 0 <= i < j < |sections| ==> sections[i].top + sections[i].height <= sections[j].top
  }

  /** On a page whose sections do not overlap, at most one dot that
      follows a section is active. */
  lemma {:induction false} AtMostOneDotActive(dots: seq<bool>, sections: seq<Section>, scrollTop: real)
    requires NonOverlapping(sections)
    ensures forall i, j :: 0 <= i < j < |dots| && j < |sections| ==>
      !(DotsAfter(dots, sections, scrollTop)[i] && DotsAfter(dots, sections, scrollTop)[j])
  {
  }

  /** The number a string of decimal digits denotes. */
  function DigitsValue(s: string): nat
    requires forall i :: 0 <= i < |s| ==> '0' <= s[i] <= '9'
  {
    if s == [] then 0 else DigitsValue(s[..|s| - 1]) * 10 + (s[|s| - 1] - '0') as nat
  }

  /** The decimal digits of `n`, as template literals print a whole number:
      no leading zero, and read back they give `n`. */
  function NatToString(n: nat): (s: string)
    ensures |s| >= 1
    ensures forall i :: 0 <= i < |s| ==> '0' <= s[i] <= '9'
    ensures DigitsValue(s) == n
    ensures s[0] == '0' ==> n == 0
  {
    var d := ['0' + (n % 10) as char];
    if n < 10 then d
    else
      var prefix := NatToString(n / 10);
      assert (prefix + d)[..|prefix + d| - 1] == prefix;
      prefix + d
  }

  /** The label of a generated dot: `data-nav-title` when it is a non-empty
      string, else `Sección <index + 1>`. */
  function DotLabel(s: Section, index: nat): (caption: string)
    ensures caption != []
    ensures s.navTitle.Some? && s.navTitle.value != "" ==> caption == s.navTitle.value
    ensures s.navTitle.None? || s.navTitle.value == "" ==> caption == "Sección " + NatToString(index + 1)
  {
    if s.navTitle.Some? && s.navTitle.value != "" then s.navTitle.value
    else "Sección " + NatToString(index + 1)
  }

  class SectionIndicator {
    /** The `.section-indicator` element exists and its handler is
        attached. */
    const present: bool
    var visible: bool
    /** The `active` class of each `.section-dot`. */
    const dots: array<bool>
    /** `data-section` and `data-target` of generated dots. */
    const labels: seq<string>
    const targets: seq<string>

    /** `initSectionIndicators`. With an indicator in the markup
        (`markupDots` is `Some`) it is used as is; without one, a dot is
        generated for each section (none when there are no sections, and
        then nothing is attached). The first update runs at once. */
    constructor (markupDots: Option<seq<bool>>, sections: seq<Section>, scrollTop: real)
      ensures present <==> markupDots.Some? || |sections| > 0
      ensures markupDots.None? && |sections| > 0 ==>
        && dots.Length == |sections|
        && |labels| == |sections| && |targets| == |sections|
        && (forall i :: 0 <= i < |sections| ==>
              labels[i] == DotLabel(sections[i], i) && targets[i] == "#" + sections[i].id)
      ensures present ==> (visible <==> scrollTop > 300.0)
      ensures present && markupDots.Some? ==> dots[..] == DotsAfter(markupDots.value, sections, scrollTop)
      ensures present && markupDots.None? ==> dots[..] == DotsAfter(seq(|sections|, _ => false), sections, scrollTop)
      ensures fresh(dots)
    {
      visible := false;
      if markupDots.Some? {
        var m := markupDots.value;
        dots := new bool[|m|](i requires 0 <= i < |m| => m[i]);
        labels, targets := [], [];
        present := true;
      } else if |sections| == 0 {
        dots := new bool[0];
        labels, targets := [], [];
        present := false;
      } else {
        dots := new bool[|sections|](_ => false);
        labels := seq(|sections|, i requires 0 <= i < |sections| => DotLabel(sections[i], i));
        targets := seq(|sections|, i requires 0 <= i < |sections| => "#" + sections[i].id);
        present := true;
      }
      new;
      if present {
        Scroll(scrollTop, sections);
      }
    }

    /** `updateSectionIndicators` on a `scroll` event. */
    method Scroll(scrollTop: real, sections: seq<Section>)
      modifies this, dots
      ensures present ==> (visible <==> scrollTop > 300.0)
      ensures present ==> dots[..] == DotsAfter(old(dots[..]), sections, scrollTop)
      ensures !present ==> visible == old(visible) && dots[..] == old(dots[..])
    {
      if !present {
        return;
      }
      visible := scrollTop > 300.0;
      var i := 0;
      while i < |sections|
        invariant 0 <= i <= |sections|
        invariant visible == (scrollTop > 300.0)
        invariant forall k :: 0 <= k < dots.Length && k < i ==> (dots[k] <==> DotActive(sections[k], scrollTop))
        invariant forall k :: i <= k < dots.Length ==> dots[k] == old(dots[k])
      {
        if i < dots.Length {
          var s := sections[i];
          if scrollTop >= s.top - 200.0 && scrollTop < s.top + s.height - 200.0 {
            dots[i] := true;
          } else {
            dots[i] := false;
          }
        }
        i := i + 1;
      }
    }
  }

  // ------------------------------------------------------------ smooth scroll

  /** What a click on an `a[href^="#"]` link does. */
  datatype AnchorOutcome =
    | Ignored                    // `href` is exactly `#`: the browser default runs
    | NoTarget                   // no element matches: the browser default runs
    | ScrollTo(target: string)   // default prevented, smooth scroll, `pushState(target)`

  /** The click handler of `initSmoothScroll`; `targets` are the hrefs whose
      `document.querySelector` finds an element. */
  function AnchorClick(href: string, targets: set<string>): (r: AnchorOutcome)
    ensures r == Ignored <==> href == "#"
    ensures r.ScrollTo? <==> href != "#" && href in targets
    ensures r.ScrollTo? ==> r.target == href
  {
    if href == "#" then Ignored
    else if href in targets then ScrollTo(href)
    else NoTarget
  }
}

=== FILE: option.dfy ===
/** A value that may be missing: a JavaScript `null` or `undefined`. */
module Wrappers {
  datatype Option<+T> = None | Some(value: T)
}

=== FILE: quiz.dfy ===
/** The quiz mini-game of main.js (section 15). Module-level `currentQuestion`
    and `score` advance as the player answers; the 1.5 s pause before the next
    question is the method `AdvanceTimer`, called when that timeout fires.
    The three panels (welcome, question, result) are a `View`; the option
    buttons of the shown question are enabled until one is clicked. */
module Quiz {

  datatype Question = Question(prompt: string, options: seq<string>, correct: nat)

  /** `quizQuestions`. */
  const Questions: seq<Question> := [
    Question("¿Cuál es mi flor favorita?", ["Rosas", "Gerberas", "Tulipanes", "Girasoles"], 1),
    Question("¿Hace cuánto reconectamos?", ["1 mes", "2 meses", "3 meses", "6 meses"], 1),
    Question("¿Qué estoy estudiando?", ["Derecho", "Medicina", "Ingeniería", "Psicología"], 1),
    Question("¿Cuántas razones te di de por qué eres especial?", ["3", "5", "6", "10"], 2),
    Question("¿Cuántas gerberas hay en el confetti del corazón?", ["4", "6", "8", "12"], 1)
  ]

  /** `quizQuestions.length`. */
  const QuestionCount: nat := 5

  /** Every question marks one of its own options as correct, so the button
      `options[q.correct]` that a wrong answer highlights always exists. */
  lemma QuestionsWellFormed()
    ensures |Questions| == QuestionCount
    ensures forall i :: 0 <= i < |Questions| ==> Questions[i].correct < |Questions[i].options|
  {
  }

  /** The four result messages of `showResults`. */
  datatype Grade = Perfect | Excellent | Good | KeepDiscovering

  /** `(score / quizQuestions.length) * 100`; for the scores 0 to 5 the
      double-precision results 0, 20, 40, 60, 80 and 100 are exact. */
  function Percentage(score: nat): real
  {
    (score as real / QuestionCount as real) * 100.0
  }

  /** The message `showResults` picks by percentage thresholds. */
  function GradeFor(score: nat): (g: Grade)
    ensures g == Perfect <==> score == 5
    ensures g == Excellent <==> score >= 4 && score != 5
    ensures g == Good <==> score == 3
    ensures g == KeepDiscovering <==> score <= 2
  {
    var p := Percentage(score);
    if p == 100.0 then Perfect
    else if p >= 80.0 then Excellent
    else if p >= 60.0 then Good
    else KeepDiscovering
  }

  /** The number of answers in `answers` that pick the correct option of the
      question at the same position. */
  function Tally(answers: seq<nat>): (n: nat)
    requires |answers| <= |Questions|
    ensures n <= |answers|
  {
    if answers == [] then 0
    else
      var k := |answers| - 1;
      Tally(answers[..k]) + (if answers[k] == Questions[k].correct then 1 else 0)
  }

  /** One more answer raises the tally by one exactly when it is correct. */
  lemma {:induction false} TallyAppend(answers: seq<nat>, a: nat)
    requires |answers| < |Questions|
    ensures Tally(answers + [a]) == Tally(answers) + (if a == Questions[|answers|].correct then 1 else 0)
  {
    assert (answers + [a])[..|answers|] == answers;
  }

  /** All answers correct gives the perfect grade; a single mistake never does. */
  lemma {:induction false} PerfectIffAllCorrect(answers: seq<nat>)
    requires |answers| == |Questions|
    ensures GradeFor(Tally(answers)) == Perfect <==>
      forall i :: 0 <= i < |answers| ==> answers[i] == Questions[i].correct
  {
    TallyFullIffAllCorrect(answers);
  }

  lemma {:induction false} TallyFullIffAllCorrect(answers: seq<nat>)
    requires |answers| <= |Questions|
    ensures Tally(answers) == |answers| <==>
      forall i :: 0 <= i < |answers| ==> answers[i] == Questions[i].correct
  {
    if answers != [] {
      var k := |answers| - 1;
      TallyFullIffAllCorrect(answers[..k]);
      assert forall i :: 0 <= i < k ==> answers[..k][i] == answers[i];
    }
  }

  datatype View = Welcome | Asking | Results

  class QuizGame {
    var currentQuestion: nat
    var score: nat
    var view: View
    /** The option buttons of the shown question take pointer clicks; once
        an answer is given `checkAnswer` sets `pointer-events: none`. */
    var optionsEnabled: bool
    /** The 1.5 s timeouts of `checkAnswer` that are scheduled and have not
        fired. */
    var pendingAdvances: nat
    /** Option indices of the shown question marked `correct` / `incorrect`. */
    var markedCorrect: set<nat>
    var markedIncorrect: set<nat>
    /** The message of the result panel. */
    var grade: Grade
    /** The answers given since the quiz was (re)started. */
    ghost var answers: seq<nat>
    /** `#quizStart` and `#quizRestart` exist, so `initQuiz` attached their
        click handlers. */
    const startWired: bool
    const restartWired: bool

    /** The game as played with pointer clicks only: one answer per
        question, at most one advance pending. */
    ghost predicate Valid()
      reads this
    {
      && |answers| <= |Questions|
      && score == Tally(answers)
      && (view == Welcome ==>
            currentQuestion == 0 && answers == [] && !optionsEnabled && pendingAdvances == 0)
      && (view == Asking ==>
            && currentQuestion < |Questions|
            && pendingAdvances <= 1
            && optionsEnabled == (pendingAdvances == 0)
            && |answers| == currentQuestion + pendingAdvances)
      && (view == Results ==>
            && currentQuestion == |Questions| && |answers| == |Questions|
            && !optionsEnabled && pendingAdvances == 0
            && grade == GradeFor(score))
    }

    /** Page load and `initQuiz`: both counters at zero, the welcome panel
        shown, and a handler on each button that exists. */
    constructor (startButton: bool, restartButton: bool)
      ensures Valid()
      ensures view == Welcome && currentQuestion == 0 && score == 0
      ensures startWired == startButton && restartWired == restartButton
    {
      startWired, restartWired := startButton, restartButton;
      currentQuestion, score := 0, 0;
      view := Welcome;
      optionsEnabled, pendingAdvances := false, 0;
      markedCorrect, markedIncorrect := {}, {};
      grade := KeepDiscovering;
      answers := [];
    }

    /** `showQuestion`: fresh, enabled buttons for question `currentQuestion`. */
    method ShowQuestion()
      requires currentQuestion < |Questions|
      modifies this
      ensures view == Asking && optionsEnabled
      ensures markedCorrect == {} && markedIncorrect == {}
      ensures currentQuestion == old(currentQuestion) && score == old(score)
      ensures pendingAdvances == old(pendingAdvances) && grade == old(grade) && answers == old(answers)
    {
      view := Asking;
      optionsEnabled := true;
      markedCorrect, markedIncorrect := {}, {};
    }

    /** The start button of the welcome panel (`startQuiz`). */
    method Start()
      requires Valid() && view == Welcome
      modifies this
      ensures Valid()
      ensures startWired ==> view == Asking && optionsEnabled && currentQuestion == 0 && score == 0
      ensures !startWired ==> unchanged(this)
    {
      if !startWired {
        return;
      }
      ShowQuestion();
    }

    /** Enter or Space on the focused option `selected` of the shown
        question. `pointer-events: none` does not stop a keyboard
        activation, so the button's handler runs `checkAnswer` whether or
        not an answer was already given: the score is counted again and
        another advance is scheduled. */
    method KeyActivateOption(selected: nat)
      requires currentQuestion < |Questions| && selected < |Questions[currentQuestion].options|
      modifies this
      ensures
        var q := Questions[old(currentQuestion)];
        && !optionsEnabled && pendingAdvances == old(pendingAdvances) + 1
        && score == old(score) + (if selected == q.correct then 1 else 0)
        && currentQuestion == old(currentQuestion) && view == old(view) && grade == old(grade)
        && markedCorrect == old(markedCorrect) + {q.correct}
        && markedIncorrect == old(markedIncorrect) + (if selected == q.correct then {} else {selected})
        && answers == old(answers) + [selected]
    {
      var q := Questions[currentQuestion];
      optionsEnabled := false;
      if selected == q.correct {
        markedCorrect := markedCorrect + {selected};
        score := score + 1;
      } else {
        markedIncorrect := markedIncorrect + {selected};
        markedCorrect := markedCorrect + {q.correct};
      }
      answers := answers + [selected];
      pendingAdvances := pendingAdvances + 1;
    }

    /** A pointer click on option `selected` of the shown question: it
        reaches `checkAnswer` only while the buttons take pointer events. */
    method ClickOption(selected: nat)
      requires optionsEnabled ==> currentQuestion < |Questions| && selected < |Questions[currentQuestion].options|
      modifies this
      ensures old(Valid()) ==> Valid()
      ensures !old(optionsEnabled) ==> unchanged(this)
      ensures old(optionsEnabled) ==>
        var q := Questions[old(currentQuestion)];
        && !optionsEnabled && pendingAdvances == old(pendingAdvances) + 1
        && score == old(score) + (if selected == q.correct then 1 else 0)
        && currentQuestion == old(currentQuestion) && view == old(view)
        && markedCorrect == old(markedCorrect) + {q.correct}
        && markedIncorrect == old(markedIncorrect) + (if selected == q.correct then {} else {selected})
        && answers == old(answers) + [selected]
    {
      if optionsEnabled {
        if Valid() {
          TallyAppend(answers, selected);
        }
        KeyActivateOption(selected);
      }
    }

    /** A 1.5 s timeout scheduled by `checkAnswer`: the next question, or
        the results once `currentQuestion` reaches the end. */
    method AdvanceTimer()
      requires pendingAdvances > 0
      modifies this
      ensures old(Valid()) ==> Valid()
      ensures currentQuestion == old(currentQuestion) + 1 && score == old(score)
      ensures pendingAdvances == old(pendingAdvances) - 1 && answers == old(answers)
      ensures currentQuestion < |Questions| ==> view == Asking && optionsEnabled
      ensures currentQuestion >= |Questions| ==> view == Results && grade == GradeFor(score)
    {
      pendingAdvances := pendingAdvances - 1;
      currentQuestion := currentQuestion + 1;
      if currentQuestion < |Questions| {
        ShowQuestion();
      } else {
        ShowResults();
      }
    }

    /** `showResults`. */
    method ShowResults()
      modifies this
      ensures view == Results && grade == GradeFor(score)
      ensures currentQuestion == old(currentQuestion) && score == old(score)
      ensures optionsEnabled == old(optionsEnabled) && pendingAdvances == old(pendingAdvances)
      ensures markedCorrect == old(markedCorrect) && markedIncorrect == old(markedIncorrect)
      ensures answers == old(answers)
    {
      view := Results;
      grade := GradeFor(score);
    }

    /** The restart button of the result panel: both counters back to zero,
        then the first question. An advance still pending (a second answer
        to the last question) is not cancelled and will skip question 1. */
    method Restart()
      requires view == Results
      modifies this
      ensures old(Valid()) ==> Valid()
      ensures restartWired && old(pendingAdvances) == 0 ==> Valid()
      ensures restartWired ==> currentQuestion == 0 && score == 0 && answers == []
      ensures restartWired ==> view == Asking && optionsEnabled
      ensures pendingAdvances == old(pendingAdvances)
      ensures !restartWired ==> unchanged(this)
    {
      if !restartWired {
        return;
      }
      currentQuestion := 0;
      score := 0;
      answers := [];
      ShowQuestion();
    }
  }

  /** While options take pointer clicks only, the counters stay ordered: the
      score never exceeds the answers given, which run at most one ahead of
      `currentQuestion` (the pending advance), and never past the number of
      questions. */
  lemma CountersBounded(g: QuizGame)
    requires g.Valid()
    ensures g.score <= |g.answers| <= QuestionCount
    ensures g.currentQuestion <= QuestionCount
    ensures g.pendingAdvances == 0 ==> g.score <= g.currentQuestion
  {
  }

  /** Enter pressed twice on the focused correct option of the shown
      question, then both 1.5 s pauses: the answer counts twice and the
      next question is skipped. */
  method AnswerTwiceByKey(g: QuizGame)
    requires g.view == Asking && g.optionsEnabled && g.pendingAdvances == 0
    requires g.currentQuestion < |Questions|
    modifies g
    ensures g.score == old(g.score) + 2 && g.currentQuestion == old(g.currentQuestion) + 2
    ensures g.pendingAdvances == 0
    ensures g.currentQuestion < |Questions| ==> g.view == Asking && g.optionsEnabled
    ensures g.currentQuestion >= |Questions| ==> g.view == Results && g.grade == GradeFor(g.score)
  {
    var correct := Questions[g.currentQuestion].correct;
    g.KeyActivateOption(correct);
    g.KeyActivateOption(correct);
    g.AdvanceTimer();
    g.AdvanceTimer();
  }

  /** Questions 1, 3 and 5 each answered correctly with a double Enter:
      questions 2 and 4 are never shown, the score reaches 6 of 5, above
      the bound `CountersBounded` proves for pointer play, and the page
      grades a player who made no mistake "Excelente" rather than
      "Perfecto". */
  method DoubleKeyPressOverscores() returns (score: nat, shown: nat, grade: Grade, restarted: bool)
    ensures score == 6 && score > QuestionCount && shown == 6
    ensures grade == Excellent && grade != GradeFor(QuestionCount)
    ensures restarted
  {
    var g := new QuizGame(true, true);
    g.Start();
    AnswerTwiceByKey(g);
    AnswerTwiceByKey(g);
    AnswerTwiceByKey(g);
    score, shown, grade := g.score, g.currentQuestion, g.grade;
    // The restart button leaves the 6 of 5 panel for a fresh, consistent game.
    g.Restart();
    assert g.Valid();
    restarted := g.score == 0 && g.currentQuestion == 0 && g.view == Asking && g.optionsEnabled;
  }

  /** A full game: answering every question in order and letting each pause
      elapse ends on the result panel with the tally of correct answers. */
  method PlayThrough(answers: seq<nat>) returns (score: nat, grade: Grade)
    requires |answers| == |Questions|
    requires forall i :: 0 <= i < |answers| ==> answers[i] < |Questions[i].options|
    ensures score == Tally(answers) && grade == GradeFor(score)
  {
    var game := new QuizGame(true, true);
    game.Start();
    var i := 0;
    while i < |answers|
      invariant 0 <= i <= |answers|
      invariant game.Valid() && game.answers == answers[..i]
      invariant i < |answers| ==> game.view == Asking && game.optionsEnabled && game.currentQuestion == i
      invariant i == |answers| ==> game.view == Results
    {
      game.ClickOption(answers[i]);
      assert answers[..i] + [answers[i]] == answers[..i + 1];
      game.AdvanceTimer();
      i := i + 1;
    }
    assert answers[..i] == answers;
    score, grade := game.score, game.grade;
  }
}

=== FILE: secret_words.dfy ===
/** Tap-to-show tooltips of the secret words (main.js section 13,
    `initSecretMessages`). Each `.secret-word` element's `active` class is one
    entry of an array; the handlers exist only on touch devices. */
module SecretWords {

  /** The classes after a tap on word `w`: `w` toggled, every other word
      inactive. */
  function AfterTap(active: seq<bool>, w: nat): (r: seq<bool>)
    requires w < |active|
    ensures |r| == |active|
    ensures r[w] == !active[w]
    ensures forall i :: 0 <= i < |r| && i != w ==> !r[i]
  {
    seq(|active|, i requires 0 <= i < |active| => if i == w then !active[w] else false)
  }

  /** At most one word shows its tooltip. */
  predicate AtMostOneActive(active: seq<bool>)
  {
    forall i, j :: 0 <= i < |active| && 0 <= j < |active| && active[i] && active[j] ==> i == j
  }

  /** Whatever was active before, a tap leaves at most one word active, and
      the tapped word is the active one exactly when it was inactive. */
  lemma TapIsExclusive(active: seq<bool>, w: nat)
    requires w < |active|
    ensures AtMostOneActive(AfterTap(active, w))
    ensures forall i :: 0 <= i < |active| ==> (AfterTap(active, w)[i] <==> i == w && !active[w])
  {
  }

  /** Two taps on the same word give that word back its own state and
      leave every other word hidden; so from a state where only `w` may be
      active, tapping `w` twice is no change at all. */
  lemma {:induction false} TapTwice(active: seq<bool>, w: nat)
    requires w < |active|
    ensures var r := AfterTap(AfterTap(active, w), w);
      && r[w] == active[w]
      && (forall i :: 0 <= i < |r| && i != w ==> !r[i])
      && ((forall i :: 0 <= i < |active| && i != w ==> !active[i]) ==> r == active)
  {
    var once := AfterTap(active, w);
    var r := AfterTap(once, w);
    assert r[w] == active[w];
    assert forall i :: 0 <= i < |r| && i != w ==> !r[i];
  }

  class SecretWordList {
    /** `word.classList.contains('active')` for each secret word. */
    const active: array<bool>
    /** `'ontouchstart' in window`: the click handlers are attached. */
    const touchDevice: bool

    constructor (initial: seq<bool>, touchDevice: bool)
      ensures active[..] == initial && this.touchDevice == touchDevice && fresh(active)
    {
      active := new bool[|initial|](i requires 0 <= i < |initial| => initial[i]);
      this.touchDevice := touchDevice;
    }

    /** The click handler of word `w`: toggle it, then remove `active` from
        every other word. */
    method Tap(w: nat)
      requires w < active.Length
      modifies active
      ensures touchDevice ==> active[..] == AfterTap(old(active[..]), w)
      ensures !touchDevice ==> unchanged(active)
    {
      if !touchDevice {
        return;
      }
      active[w] := !active[w];
      for i := 0 to active.Length
        invariant active[w] == !old(active[w])
        invariant forall k :: 0 <= k < i && k != w ==> !active[k]
        invariant forall k :: i <= k < active.Length && k != w ==> active[k] == old(active[k])
      {
        if i != w {
          active[i] := false;
        }
      }
    }

    /** The document click handler: a click whose target is not a secret word
        hides every tooltip. A tap on a word reaches it too, with the word as
        target, and then changes nothing. */
    method DocumentClick(targetIsSecretWord: bool)
      modifies active
      ensures touchDevice && !targetIsSecretWord ==> forall k :: 0 <= k < active.Length ==> !active[k]
      ensures !touchDevice || targetIsSecretWord ==> unchanged(active)
    {
      if !touchDevice || targetIsSecretWord {
        return;
      }
      for i := 0 to active.Length
        invariant forall k :: 0 <= k < i ==> !active[k]
      {
        active[i] := false;
      }
    }
  }
}

=== FILE: text.dfy ===
/** JavaScript string operations that the page's handlers rely on:
    `String.prototype.trim` (memoryCards.js) and `String.prototype.includes`
    (the lightbox in main.js). Strings are sequences of characters. */
module Text {

  /** The characters `trim` removes: ECMAScript WhiteSpace (tab, vertical tab,
      form feed, space, no-break space, byte order mark and the Unicode
      space separators) and LineTerminator (LF, CR, U+2028, U+2029). */
  predicate IsWhitespace(c: char)
  {
    || c == '\t' || c == '\U{000B}' || c == '\U{000C}' || c == ' ' || c == '\U{00A0}'
    || c == '\U{FEFF}' || c == '\n' || c == '\r' || c == '\U{2028}' || c == '\U{2029}'
    || c == '\U{1680}' || ('\U{2000}' <= c <= '\U{200A}') || c == '\U{202F}'
    || c == '\U{205F}' || c == '\U{3000}'
  }

  /** Every character of `s` is whitespace (true of the empty string). */
  predicate IsBlank(s: string)
  {
    forall i :: 0 <= i < |s| ==> IsWhitespace(s[i])
  }

  /** Leading whitespace removed. */
  function TrimStart(s: string): (r: string)
    ensures |r| <= |s| && r == s[|s| - |r|..]
    ensures r == [] || !IsWhitespace(r[0])
    ensures IsBlank(s[..|s| - |r|])
  {
    if s != [] && IsWhitespace(s[0]) then
      var r := TrimStart(s[1..]);
      assert s[1..][..|s| - 1 - |r|] == s[1..|s| - |r|];
      r
    else s
  }

  /** Trailing whitespace removed. */
  function TrimEnd(s: string): (r: string)
    ensures |r| <= |s| && r == s[..|r|]
    ensures r == [] || !IsWhitespace(r[|r| - 1])
    ensures IsBlank(s[|r|..])
  {
    if s != [] && IsWhitespace(s[|s| - 1]) then
      var r := TrimEnd(s[..|s| - 1]);
      assert s[..|s| - 1][|r|..] + [s[|s| - 1]] == s[|r|..];
      r
    else s
  }

  /** `s.trim()`: the piece of `s` left once its leading and trailing
      whitespace is removed; it neither starts nor ends with whitespace. */
  function Trim(s: string): (r: string)
    ensures r == [] || (!IsWhitespace(r[0]) && !IsWhitespace(r[|r| - 1]))
    ensures OccursIn(r, s)
    ensures exists k :: Framed(r, s, k)
  {
    var t := TrimStart(s);
    var r := TrimEnd(t);
    TrimPieces(s, t, r);
    assert Framed(r, s, |s| - |t|);
    r
  }

  /** `r` occurs in `s` at `k` with nothing but whitespace before and after
      it. */
  predicate Framed(r: string, s: string, k: int)
  {
    OccursAt(r, s, k) && IsBlank(s[..k]) && IsBlank(s[k + |r|..])
  }

  /** The end of `s` with its leading whitespace removed, cut before its
      trailing whitespace, is what lies between the two runs of whitespace
      of `s`. */
  lemma TrimPieces(s: string, t: string, r: string)
    requires |t| <= |s| && t == s[|s| - |t|..] && IsBlank(s[..|s| - |t|])
    requires t == [] || !IsWhitespace(t[0])
    requires |r| <= |t| && r == t[..|r|] && IsBlank(t[|r|..])
    requires r == [] || !IsWhitespace(r[|r| - 1])
    ensures r == [] || (!IsWhitespace(r[0]) && !IsWhitespace(r[|r| - 1]))
    ensures OccursAt(r, s, |s| - |t|)
    ensures IsBlank(s[|s| - |t| + |r|..])
  {
    var k := |s| - |t|;
    assert r != [] ==> r[0] == t[0];
    assert s[k..k + |r|] == r;
    assert s[k + |r|..] == t[|r|..];
  }

  /** `!s.trim()` holds, i.e. the trimmed string is empty, exactly when the
      string consists of whitespace only. */
  lemma {:induction false} TrimEmptyIffBlank(s: string)
    ensures Trim(s) == [] <==> IsBlank(s)
  {
    var t := TrimStart(s);
    if Trim(s) == [] {
      // Nothing is left after TrimEnd, so t, which starts with a
      // non-whitespace character when it is not empty, is empty.
      assert t[0..] == t;
      assert t == [];
      assert s[..|s|] == s;
    } else {
      // A non-blank string keeps its first non-whitespace character.
      var r := Trim(s);
      assert r[0] == t[0] && !IsWhitespace(t[0]);
      assert t[0] == s[|s| - |t|];
    }
  }

  /** `s.startsWith(t)`. */
  predicate StartsWith(s: string, t: string)
  {
    |t| <= |s| && s[..|t|] == t
  }

  /** An occurrence of `t` begins at position `i` of `s`. */
  predicate OccursAt(t: string, s: string, i: int)
  {
    0 <= i <= |s| - |t| && s[i..i + |t|] == t
  }

  /** Some occurrence of `t` begins at a position of `s`. */
  ghost predicate OccursIn(t: string, s: string)
  {
    exists i :: OccursAt(t, s, i)
  }

  /** An occurrence in `s` is one at its start or one in its tail. */
  lemma OccursInCons(t: string, s: string)
    requires s != []
    ensures OccursIn(t, s) <==> StartsWith(s, t) || OccursIn(t, s[1..])
  {
    if StartsWith(s, t) {
      assert OccursAt(t, s, 0);
    }
    if OccursIn(t, s[1..]) {
      var i :| OccursAt(t, s[1..], i);
      assert s[1..][i..i + |t|] == s[i + 1..i + 1 + |t|];
      assert OccursAt(t, s, i + 1);
    }
    if OccursIn(t, s) && !StartsWith(s, t) {
      var i :| OccursAt(t, s, i);
      assert i > 0;
      assert s[1..][i - 1..i - 1 + |t|] == s[i..i + |t|];
      assert OccursAt(t, s[1..], i - 1);
    }
  }

  /** `s.includes(t)`. */
  function Includes(s: string, t: string): (r: bool)
    ensures r <==> OccursIn(t, s)
    decreases |s|
  {
    if s == [] then
      assert StartsWith(s, t) ==> OccursAt(t, s, 0);
      StartsWith(s, t)
    else
      OccursInCons(t, s);
      StartsWith(s, t) || Includes(s[1..], t)
  }
}

=== FILE: theme.dfy ===
/** The dark-mode toggle of main.js (section 17, `initDarkMode`). The body's
    `dark-mode` class is a boolean and `localStorage` is a map from keys to
    strings; a key that is absent is what `getItem` reports as `null`. */
module Theme {

  import opened Wrappers

  const ThemeKey: string := "theme"

  /** Page load leaves light mode only for an explicitly saved `'light'`. */
  predicate ResolveDarkMode(storage: map<string, string>)
    ensures ThemeKey !in storage ==> ResolveDarkMode(storage)
    ensures !ResolveDarkMode(storage) ==> ThemeKey in storage && storage[ThemeKey] == "light"
  {
    !(ThemeKey in storage && storage[ThemeKey] == "light")
  }

  /** Page load writes `'dark'` when nothing usable is saved: `!savedTheme`
      holds for a missing key and for the empty string. */
  function ResolveStorage(storage: map<string, string>): (s: map<string, string>)
    ensures ThemeKey in s && s.Keys == storage.Keys + {ThemeKey}
    ensures forall k :: k in storage && k != ThemeKey ==> s[k] == storage[k]
    ensures ThemeKey in storage && storage[ThemeKey] != "" ==> s[ThemeKey] == storage[ThemeKey]
    ensures ThemeKey !in storage || storage[ThemeKey] == "" ==> s[ThemeKey] == "dark"
  {
    if ThemeKey !in storage || storage[ThemeKey] == "" then storage[ThemeKey := "dark"] else storage
  }

  /** The stored theme names the mode the body shows. */
  predicate InStep(dark: bool, storage: map<string, string>)
  {
    ThemeKey in storage && storage[ThemeKey] == (if dark then "dark" else "light")
  }

  /** After page load the stored preference is present and agrees with the
      mode on `'light'`; and whenever the saved value was one of the two the
      toggle writes, the two are in step from the start. */
  lemma {:induction false} LoadAgreesWithStorage(storage: map<string, string>)
    ensures var s := ResolveStorage(storage);
      && ThemeKey in s
      && (ResolveDarkMode(storage) <==> s[ThemeKey] != "light")
      && (ThemeKey !in storage || storage[ThemeKey] in {"", "dark", "light"} ==>
            InStep(ResolveDarkMode(storage), s))
  {
    var s := ResolveStorage(storage);
    if ThemeKey in storage && storage[ThemeKey] != "" {
      assert s[ThemeKey] == storage[ThemeKey];
    }
  }

  class ThemePage {
    /** `document.body.classList.contains('dark-mode')`. */
    var darkMode: bool
    var storage: map<string, string>
    /** The toggle button exists, so `initDarkMode` ran and its click handler
        is attached. */
    const toggleWired: bool

    /** `initDarkMode` on a page whose body starts with class `dark` (or not)
        and whose storage holds `storage`. Without a toggle button it returns
        at once and touches nothing. */
    constructor (toggleButtonPresent: bool, dark: bool, storage: map<string, string>)
      ensures toggleWired == toggleButtonPresent
      ensures toggleButtonPresent ==>
        this.darkMode == ResolveDarkMode(storage) && this.storage == ResolveStorage(storage)
      ensures !toggleButtonPresent ==> this.darkMode == dark && this.storage == storage
    {
      toggleWired := toggleButtonPresent;
      if !toggleButtonPresent {
        this.darkMode, this.storage := dark, storage;
      } else {
        var saved := if ThemeKey in storage then Some(storage[ThemeKey]) else None;
        if saved == Some("light") {
          this.darkMode := false;
          this.storage := storage;
        } else {
          this.darkMode := true;
          this.storage := if saved == None || saved == Some("") then storage[ThemeKey := "dark"] else storage;
        }
      }
    }

    /** A click on the toggle: flip the class, then save the mode it shows.
        Other storage keys are untouched. */
    method ToggleClick()
      modifies this
      ensures !toggleWired ==> unchanged(this)
      ensures toggleWired ==> darkMode == !old(darkMode)
      ensures toggleWired ==> storage == old(storage)[ThemeKey := if darkMode then "dark" else "light"]
      ensures toggleWired ==> InStep(darkMode, storage)
    {
      if toggleWired {
        darkMode := !darkMode;
        if darkMode {
          storage := storage[ThemeKey := "dark"];
        } else {
          storage := storage[ThemeKey := "light"];
        }
      }
    }
  }
}

=== FILE: time_counter.dfy ===
/** The live counter of days since the reconnection date (section 9 of
    main.js). Every second `update()` takes the elapsed time `diff` in whole
    milliseconds and splits it into days, hours, minutes and seconds with
    `Math.floor` and the `%` operator of JavaScript, which truncates toward
    zero (unlike Dafny's `%`, which is Euclidean). Reading the clock and
    writing the text are left to the caller: the model is the split. */
module TimeCounter {

  const MsPerSecond: int := 1000
  const MsPerMinute: int := 1000 * 60
  const MsPerHour: int := 1000 * 60 * 60
  const MsPerDay: int := 1000 * 60 * 60 * 24

  /** `Math.floor(a / b)` for an integer `a` and a positive integer `b`. */
  function FloorDiv(a: int, b: int): (q: int)
    requires b > 0
    ensures b * q <= a < b * q + b
  {
    a / b
  }

  /** JavaScript's `a % b` for a positive `b`: the remainder of truncating
      division. It agrees with the Euclidean remainder on non-negative
      dividends and is odd, so it takes the sign of the dividend. */
  function JsRem(a: int, b: int): (r: int)
    requires b > 0
    ensures -b < r < b
    ensures a >= 0 ==> r == a % b
    ensures a < 0 ==> r <= 0 && r == -((-a) % b)
  {
    if a >= 0 then a % b else -((-a) % b)
  }

  /** The four numbers the counter displays. */
  datatype Elapsed = Elapsed(days: int, hours: int, minutes: int, seconds: int)

  /** What `update()` computes from `diff = now - reconnectionDate`. */
  function Decompose(diff: int): (e: Elapsed)
    ensures MsPerDay * e.days <= diff < MsPerDay * e.days + MsPerDay
    ensures MsPerHour * e.hours <= JsRem(diff, MsPerDay) < MsPerHour * e.hours + MsPerHour
    ensures MsPerMinute * e.minutes <= JsRem(diff, MsPerHour) < MsPerMinute * e.minutes + MsPerMinute
    ensures MsPerSecond * e.seconds <= JsRem(diff, MsPerMinute) < MsPerSecond * e.seconds + MsPerSecond
  {
    Elapsed(
      FloorDiv(diff, MsPerDay),
      FloorDiv(JsRem(diff, MsPerDay), MsPerHour),
      FloorDiv(JsRem(diff, MsPerHour), MsPerMinute),
      FloorDiv(JsRem(diff, MsPerMinute), MsPerSecond))
  }

  /** The displayed duration in milliseconds. */
  function TotalMs(e: Elapsed): int
  {
    e.days * MsPerDay + e.hours * MsPerHour + e.minutes * MsPerMinute + e.seconds * MsPerSecond
  }

  /** Euclidean division by a positive constant is determined by its
      defining equation. */
  lemma RemUnique(a: int, b: int, q: int, r: int)
    requires b == MsPerHour || b == MsPerMinute || b == MsPerSecond
    requires a == b * q + r && 0 <= r < b
    ensures a % b == r
  {
  }

  /** Taking the remainder by a day first does not change the remainder by
      an hour; likewise hours before minutes and minutes before seconds. */
  lemma NestedRemainders(a: int)
    requires a >= 0
    ensures (a % MsPerDay) % MsPerHour == a % MsPerHour
    ensures (a % MsPerHour) % MsPerMinute == a % MsPerMinute
    ensures (a % MsPerMinute) % MsPerSecond == a % MsPerSecond
  {
    var d := a % MsPerDay;
    assert a == MsPerHour * (24 * (a / MsPerDay) + d / MsPerHour) + d % MsPerHour;
    RemUnique(a, MsPerHour, 24 * (a / MsPerDay) + d / MsPerHour, d % MsPerHour);
    var h := a % MsPerHour;
    assert a == MsPerMinute * (60 * (a / MsPerHour) + h / MsPerMinute) + h % MsPerMinute;
    RemUnique(a, MsPerMinute, 60 * (a / MsPerHour) + h / MsPerMinute, h % MsPerMinute);
    var m := a % MsPerMinute;
    assert a == MsPerSecond * (60 * (a / MsPerMinute) + m / MsPerSecond) + m % MsPerSecond;
    RemUnique(a, MsPerSecond, 60 * (a / MsPerMinute) + m / MsPerSecond, m % MsPerSecond);
  }

  /** For a non-negative difference: every unit below days stays under its
      carry-over bound, and the displayed parts add back up to `diff` with
      only the sub-second remainder dropped. */
  lemma {:induction false} DecomposeExact(diff: int)
    requires diff >= 0
    ensures var e := Decompose(diff);
      && e.days >= 0
      && 0 <= e.hours < 24 && 0 <= e.minutes < 60 && 0 <= e.seconds < 60
      && TotalMs(e) + diff % MsPerSecond == diff
      && diff - MsPerSecond < TotalMs(e) <= diff
  {
    var e := Decompose(diff);
    var d, h, m := diff % MsPerDay, diff % MsPerHour, diff % MsPerMinute;
    // Each remainder is the previous one split once more.
    NestedRemainders(diff);
    assert d == MsPerHour * e.hours + h;
    assert h == MsPerMinute * e.minutes + m;
    assert m == MsPerSecond * e.seconds + diff % MsPerSecond;
    assert diff == MsPerDay * e.days + d;
  }

  /** For any difference, including one from a clock set before the
      reconnection date, the parts below days stay within one carry-over
      bound of zero; for a negative difference none of them is positive. */
  lemma DecomposeBounded(diff: int)
    ensures var e := Decompose(diff);
      && -24 <= e.hours < 24 && -60 <= e.minutes < 60 && -60 <= e.seconds < 60
      && (diff < 0 ==> e.days < 0 && e.hours <= 0 && e.minutes <= 0 && e.seconds <= 0)
  {
  }
}
